=== FILE: README.md ===
# Snowflake identifiers, base conversion and timestamp parsing, in Dafny

This project models the core of a small Java identifier library (package
`com.v1ok.uuid`) and proves properties of the model:

- **The snowflake generator** (`GenerateImpl`): a 64-bit identifier built
  from the milliseconds since an epoch, a 5-bit data-center id, a 5-bit
  worker id and a 12-bit per-millisecond sequence. The model has two layers:
  - module `Snowflake` (`snowflake.dfy`) describes one call of `nextIdToLong`
    as a function on values: `NextId` maps the settings, the fields
    `sequence`/`lastTimestamp` and the clock readings to an identifier or an
    exception, the fields it leaves and the readings it takes;
  - module `SnowflakeGenerator` (`generator.dfy`) is the Java class itself,
    with mutable fields and a clock object, and its methods are proved to do
    exactly what `NextId` says.
- **The base converter** (`NumericConvertUtil`, module `NumericConvert`,
  `numeric_convert.dfy`):
  - `toOtherBaseString` fills a 64-character array from its end;
  - `toDecimalism` sums digit values times powers of the base.
  - Both are specified by `Encode` and `ValueOf`, which are proved to be
    inverse to each other.
- **The timestamp decoder** (`IDParseDate.parse`, module `IdParseDate`,
  `id_parse_date.dfy`): the right shift plus the epoch, with the shift and the
  epoch as parameters.
- **Java `long` arithmetic** (module `JavaLong`, `java_long.dfy`):
  - a `long` is an `int` in [-2^63, 2^63);
  - `Wrap` writes out the 64-bit overflow;
  - `<<`, `>>`, `|`, `&`, `/` and `%` are defined bit by bit or by truncating
    division, as Java defines them.

Decisions:
- **The timestamp shift.** The constructor computes `timestampLeftShift` as
  `sequenceBits + dataCenterIdBits` = 17 (GenerateImpl.java:98). The field
  comment (GenerateImpl.java:62) and the layout in the class comment give 22.
  - The class model keeps the computed value (`AS_WRITTEN`).
  - The documented value is the layout `DOCUMENTED`, which the ordering,
    uniqueness and parsing lemmas use.
  - See "## Findings".
- **Designs of this kind often decode case-insensitively or wait out a clock
  that moved back. This code does neither, and the model follows the code.**
  - `toDecimalism` matches upper-case symbols only.
  - A clock that moved backwards raises the error at once, without waiting.

## Model

| member | source | states |
|---|---|---|
| `JavaLong.MaxForBits` | src/main/java/com/v1ok/uuid/snowflake/GenerateImpl.java:121 | `-1L ^ (-1L << bits)` is 2^bits - 1, the largest value of `bits` unsigned bits |
| `JavaLong.ShiftLeft` | src/main/java/com/v1ok/uuid/snowflake/GenerateImpl.java:165-167 | a left shift that does not overflow multiplies by 2^(k mod 64) |
| `JavaLong.ShiftLeftExact` | src/main/java/com/v1ok/uuid/snowflake/GenerateImpl.java:165-167 | a non-negative value below 2^(63-k), shifted left by k, is exactly x * 2^k |
| `JavaLong.AndLowMask` | src/main/java/com/v1ok/uuid/snowflake/GenerateImpl.java:149 | `x & (2^k - 1)` equals x mod 2^k for every integer x, negative ones included |
| `JavaLong.WrapMod` | src/main/java/com/v1ok/uuid/snowflake/GenerateImpl.java:149 | 64-bit overflow does not change the low k bits, for any k up to 64 |
| `JavaLong.LongOr` | src/main/java/com/v1ok/uuid/snowflake/GenerateImpl.java:165-168 | OR of two longs is a long, and non-negative when both operands are |
| `JavaLong.OrShifted` | src/main/java/com/v1ok/uuid/snowflake/GenerateImpl.java:165-168 | OR of a value shifted by k with a value below 2^k is their sum |
| `JavaLong.OrScaled` | src/main/java/com/v1ok/uuid/snowflake/GenerateImpl.java:165-168 | OR commutes with shifting both operands left by the same k |
| `JavaLong.ShiftRight` | src/main/java/com/v1ok/uuid/snowflake/support/IDParseDate.java:15 | `>>` keeps the sign of a long and never increases its magnitude |
| `JavaLong.ShiftRightIsFloorDiv` | src/main/java/com/v1ok/uuid/snowflake/support/IDParseDate.java:15 | the arithmetic right shift `>>` is floor division by 2^(k mod 64), negative values included |
| `JavaLong.JavaDiv` | src/main/java/com/v1ok/uuid/util/NumericConvertUtil.java:29-31 | Java's `/` rounds toward zero: q·b is the multiple of b nearest to a on the side of zero, within b of a |
| `JavaLong.JavaRem` | src/main/java/com/v1ok/uuid/util/NumericConvertUtil.java:30 | Java's `%` satisfies `a == (a / b) * b + a % b`, with the sign of the dividend and magnitude below b |
| `NumericConvert.Validate` | src/main/java/com/v1ok/uuid/util/NumericConvertUtil.java:60-64 | accepts exactly the bases 2..36; any other base gives the base error |
| `NumericConvert.DigitAt` | src/main/java/com/v1ok/uuid/util/NumericConvertUtil.java:7-10 | table entry k is the k-th symbol, reads back as k, and is a digit of every base above k |
| `NumericConvert.DigitValueIsIndex` | src/main/java/com/v1ok/uuid/util/NumericConvertUtil.java:50-55 | a character present in the table sits at its digit value; a character absent from it has digit value 0 |
| `NumericConvert.IsDigitInTable` | src/main/java/com/v1ok/uuid/util/NumericConvertUtil.java:7-10 | c is a digit of the base exactly when it is one of the first `base` table entries |
| `NumericConvert.Encode` | src/main/java/com/v1ok/uuid/util/NumericConvertUtil.java:27-34 | the rendering is non-empty; every character is a digit of the base; it starts with '0' only when it is "0" (n = 0) |
| `NumericConvert.DecodeEncode` | src/main/java/com/v1ok/uuid/util/NumericConvertUtil.java:19-58 | reading back the digits of n gives n |
| `NumericConvert.EncodeDecode` | src/main/java/com/v1ok/uuid/util/NumericConvertUtil.java:19-58 | every string of base digits without a leading zero is the rendering of its own value |
| `NumericConvert.EncodeLength` | src/main/java/com/v1ok/uuid/util/NumericConvertUtil.java:29-33 | a number below 2^k has at most k digits in any base |
| `NumericConvert.EncodeFitsBuffer` | src/main/java/com/v1ok/uuid/util/NumericConvertUtil.java:27-28 | a non-negative long has at most 63 digits, so the 64-character buffer never overflows |
| `NumericConvert.QuotientPositive` | src/main/java/com/v1ok/uuid/util/NumericConvertUtil.java:29 | the loop guard `num / base > 0` holds exactly when num >= base |
| `NumericConvert.NextDigit` | src/main/java/com/v1ok/uuid/util/NumericConvertUtil.java:29-31 | one loop step: Java's `/` and `%` agree with floor division on non-negative values, and the digits still to write are those of num / base |
| `NumericConvert.LastDigit` | src/main/java/com/v1ok/uuid/util/NumericConvertUtil.java:33 | after the loop num is a single digit, and writing it completes the rendering |
| `NumericConvert.ShiftedCases` | src/main/java/com/v1ok/uuid/util/NumericConvertUtil.java:22-26 | non-negative n is rendered as is; n in [-2^32, 0) is rendered as n + 2^32; the value stays negative exactly when n < -2^32 |
| `NumericConvert.ToOtherBaseString` | src/main/java/com/v1ok/uuid/util/NumericConvertUtil.java:19-35 | a bad base is an error; otherwise the digits of the shifted value, 1 to 63 characters long; below -2^32, "0" or an out-of-bounds digit index, depending on the sign of Java's remainder |
| `NumericConvert.WriteDigits` | src/main/java/com/v1ok/uuid/util/NumericConvertUtil.java:27-34 | the loop leaves exactly the digits of num at the end of the buffer, starting at position 1..63 |
| `NumericConvert.ToDecimalism` | src/main/java/com/v1ok/uuid/util/NumericConvertUtil.java:44-58 | a bad base is an error; otherwise the sum of each character's digit value times base^(characters to its right) |
| `NumericConvert.SearchFinds` | src/main/java/com/v1ok/uuid/util/NumericConvertUtil.java:50-55 | the inner table search stops at the character's digit value, or runs off the table for a character worth 0 |
| `NumericConvert.AppendDigit` | src/main/java/com/v1ok/uuid/util/NumericConvertUtil.java:52 | adding one weighted digit keeps the sum equal to the prefix's value times the remaining power |
| `Snowflake.CheckIds` | src/main/java/com/v1ok/uuid/snowflake/GenerateImpl.java:100-111 | no error exactly when both ids are in 0..31; a bad worker id is reported first, with maximum 31 |
| `Snowflake.NextSequence` | src/main/java/com/v1ok/uuid/snowflake/GenerateImpl.java:149 | `(sequence + 1) & sequenceMask` is (sequence + 1) mod 4096 |
| `Snowflake.SleepTimeNegative` | src/main/java/com/v1ok/uuid/snowflake/GenerateImpl.java:181-182 | the long `lastTimestamp - timestamp` is negative, so `sleep` throws, exactly when the reading is more than 2^63 - 1 ms before `lastTimestamp` |
| `Snowflake.WaitStop` | src/main/java/com/v1ok/uuid/snowflake/GenerateImpl.java:177-186 | the reading where the wait stops is later than `lastTimestamp` or makes the sleep throw; every reading before it is not later and has a valid sleep time |
| `Snowflake.Wait` | src/main/java/com/v1ok/uuid/snowflake/GenerateImpl.java:177-186 | tilNextMillis returns the reading at WaitStop, the first that stops the wait, exactly when it is later than `lastTimestamp`; otherwise it throws with that reading's sleep time, `lastTimestamp - t` wrapped to a long, which is negative |
| `Snowflake.AfterWait` | src/main/java/com/v1ok/uuid/snowflake/GenerateImpl.java:151-154 | a wrapped call issues sequence 0 in the millisecond the wait returns, or keeps `lastTimestamp` with the sequence reset when the wait throws; it takes the readings up to the stop |
| `Snowflake.NextId` | src/main/java/com/v1ok/uuid/snowflake/GenerateImpl.java:137-169 | a first reading earlier than `lastTimestamp` throws ClockMovedBackwards with the long difference `lastTimestamp - t` and changes nothing; any exception keeps `lastTimestamp`; on success the new `lastTimestamp` is a reading not earlier than the old one, the sequence is in 0..4095, the id is composed from them, and the sequence is old + 1 (never 0) in the same millisecond and 0 in a later one; a first reading later than `lastTimestamp` is used as it is with sequence 0 and one reading consumed, and a first reading equal to it without a wrap keeps that millisecond with sequence (old + 1) mod 4096 and one reading consumed |
| `Snowflake.OverflowWaits` | src/main/java/com/v1ok/uuid/snowflake/GenerateImpl.java:151-154 | when the sequence wraps, the call issues sequence 0 at the first later reading; when a reading more than 2^63 - 1 ms back comes first, it throws NegativeSleep, leaving sequence 0 and `lastTimestamp` unchanged |
| `Snowflake.FirstCallResets` | src/main/java/com/v1ok/uuid/snowflake/GenerateImpl.java:84 | a new generator (lastTimestamp -1) takes the reset branch: sequence 0 at the first reading |
| `Snowflake.FailedWaitRepeatsId` | src/main/java/com/v1ok/uuid/snowflake/GenerateImpl.java:149-154 | after a wait that throws, the generator is at sequence 0 in a millisecond it has used up, and the next call in that millisecond returns sequence 1 again |
| `Snowflake.NextIdAdvances` | src/main/java/com/v1ok/uuid/snowflake/GenerateImpl.java:148-162 | every successful call moves (lastTimestamp, sequence) strictly forward in lexicographic order |
| `Snowflake.Compose` | src/main/java/com/v1ok/uuid/snowflake/GenerateImpl.java:165-168 | with every shift in 12..63, as in both layouts, the low 12 bits of an id are its sequence number; DocumentedPacking gives the rest of its value in the documented layout; AsWrittenId gives it for the as-written layout only with worker 0 and a time delta below 32 |
| `Snowflake.DocumentedPacking` | src/main/java/com/v1ok/uuid/snowflake/GenerateImpl.java:8-10 | with shifts 12/17/22 and a 41-bit time delta, the id equals the mixed-radix value delta·2^22 + dc·2^17 + worker·2^12 + sequence |
| `Snowflake.PackedOrder` | src/main/java/com/v1ok/uuid/snowflake/GenerateImpl.java:12 | a later millisecond, or a later sequence in the same millisecond, gives a larger packed value |
| `Snowflake.PackedInjective` | src/main/java/com/v1ok/uuid/snowflake/GenerateImpl.java:12 | the packed value determines all four fields |
| `Snowflake.DocumentedIdsIncrease` | src/main/java/com/v1ok/uuid/snowflake/GenerateImpl.java:12 | in the documented layout, with timestamps in the 41-bit range, each id is larger than the id the fields the call starts from compose, which is the previous id when no call threw in between (after a failed wait ids repeat, FailedWaitRepeatsId) |
| `Snowflake.DocumentedNodesDistinct` | src/main/java/com/v1ok/uuid/snowflake/GenerateImpl.java:12 | in the documented layout, generators with the same epoch and different (data center, worker) pairs never issue the same id |
| `Snowflake.AsWrittenId` | src/main/java/com/v1ok/uuid/snowflake/GenerateImpl.java:96-98 | with the computed shifts, a small time delta and the data-center id are ORed into the same bits from bit 17 up |
| `Snowflake.AsWrittenRepeatsId` | src/main/java/com/v1ok/uuid/snowflake/GenerateImpl.java:98 | data center 1, worker 0: calls at the epoch and one millisecond later both return 2^17 |
| `Snowflake.AsWrittenIdDecreases` | src/main/java/com/v1ok/uuid/snowflake/GenerateImpl.java:98 | data center 2, worker 0: consecutive calls return 3·2^17 and then 2·2^17 |
| `Snowflake.AsWrittenNodesCollide` | src/main/java/com/v1ok/uuid/snowflake/GenerateImpl.java:98 | data centers 0 and 1 issue the same id, one millisecond apart |
| `Snowflake.ToHexString` | src/main/java/com/v1ok/uuid/snowflake/GenerateImpl.java:134 | `Long.toHexString`: non-empty lowercase hex digits, starting with '0' only for id 0 |
| `Snowflake.HexRoundTrip` | src/main/java/com/v1ok/uuid/snowflake/GenerateImpl.java:134 | the hex string reads back as the unsigned value of the id, that is the id itself when it is not negative |
| `SnowflakeGenerator.Clock.Now` | src/main/java/com/v1ok/uuid/snowflake/GenerateImpl.java:193-195 | timeGen returns the next clock reading and consumes it |
| `SnowflakeGenerator.GenerateImpl.constructor` | src/main/java/com/v1ok/uuid/snowflake/GenerateImpl.java:90-98 | sets the bit widths 12/5/5, the shifts 12/17/17 and the ids and epoch given; the sequence starts at 0 and lastTimestamp at -1 |
| `SnowflakeGenerator.GenerateImpl.GetMaxWorkerId` | src/main/java/com/v1ok/uuid/snowflake/GenerateImpl.java:120-122 | 2^workerIdBits - 1, which is 31 |
| `SnowflakeGenerator.GenerateImpl.GetMaxDateCenterId` | src/main/java/com/v1ok/uuid/snowflake/GenerateImpl.java:129-131 | 2^dataCenterIdBits - 1, which is 31 |
| `SnowflakeGenerator.GenerateImpl.Create` | src/main/java/com/v1ok/uuid/snowflake/GenerateImpl.java:90-113 | fails exactly as CheckIds says; otherwise a fresh valid generator with those settings and the initial fields |
| `SnowflakeGenerator.GenerateImpl.CreateDefault` | src/main/java/com/v1ok/uuid/snowflake/GenerateImpl.java:86-88 | the same, with the default epoch 1542444628916 |
| `SnowflakeGenerator.GenerateImpl.TilNextMillis` | src/main/java/com/v1ok/uuid/snowflake/GenerateImpl.java:177-186 | the loop returns what Wait says: the first reading later than lastTimestamp, or the sleep's exception for a reading whose sleep time overflows; it consumes the clock up to that reading |
| `SnowflakeGenerator.GenerateImpl.NextIdToLong` | src/main/java/com/v1ok/uuid/snowflake/GenerateImpl.java:137-169 | one step of NextId: the same result, the fields NextId leaves (after an exception too) and the readings it takes; the sequence kept in 0..4095 |
| `SnowflakeGenerator.GenerateImpl.NextIdToString` | src/main/java/com/v1ok/uuid/snowflake/GenerateImpl.java:133-135 | the hex string of the id NextId gives; the fields and the remaining clock readings change as in NextIdToLong, on the error path as well |
| `IdParseDate.Parse` | src/main/java/com/v1ok/uuid/snowflake/support/IDParseDate.java:14-17 | without overflow, parse is floor(id / 2^shift) + epoch |
| `IdParseDate.ParseMonotone` | src/main/java/com/v1ok/uuid/snowflake/support/IDParseDate.java:14-17 | a larger id never parses to an earlier time |
| `IdParseDate.ParseInverts` | src/main/java/com/v1ok/uuid/snowflake/support/IDParseDate.java:14-17 | d shifted left by `shift` and ORed with a low part below 2^shift parses to d + epoch |
| `IdParseDate.ParseIgnoresLowBits` | src/main/java/com/v1ok/uuid/snowflake/support/IDParseDate.java:15 | ids that differ only below the shift parse to the same time |
| `IdParseDate.ParseDocumentedId` | src/main/java/com/v1ok/uuid/snowflake/support/IDParseDate.java:14-17 | in the documented layout, parsing with shift 22 recovers the millisecond an id was issued in |
| `IdParseDate.ParseAsWrittenId` | src/main/java/com/v1ok/uuid/snowflake/support/IDParseDate.java:15 | with shift 17, the id data center 1 issues at the epoch parses to one millisecond later |

## Left out

- Concurrency: the `synchronized` on nextIdToLong (GenerateImpl.java:137) is
  not modelled. Calls are sequential method calls on one object.
- The pause of `Thread.sleep` in tilNextMillis (GenerateImpl.java:182) is
  not modelled: the loop reads the clock again at once, and the clock's
  readings stand for whatever time passes. The IllegalArgumentException that
  `sleep` throws for a negative time is modelled (`NegativeSleep`).
- `InterruptedException` from the sleep is not modelled. Like the exception
  of a negative sleep, it would leave sequence 0 and `lastTimestamp`
  unchanged, so a later call in the same millisecond would issue sequence 1
  again (`FailedWaitRepeatsId` shows this for the negative sleep).
- The system clock (GenerateImpl.java:193-195) is a `Clock` object holding
  the readings it will return.
- SnowflakeGenerator.GenerateImpl.NextIdToLong: requires that the clock has
  a reading left. When the sequence wraps, it also requires that some later
  reading stops the wait (`ClockSuffices`): one after lastTimestamp, or one so
  far back that the sleep throws. The Java loop would spin forever on a clock
  that does neither.
- SnowflakeGenerator.GenerateImpl.NextIdToString: has the same precondition
  on the clock.
- SnowflakeGenerator.GenerateImpl.constructor: a Dafny constructor cannot
  throw, so it sets the fields only. The checks and the
  IllegalArgumentException are in `Create` and `CreateDefault`, which return
  an error value.
- Exception messages: the formatted text is reduced to the number it reports.
- Snowflake.ToHexString: `Long.toHexString` is a library call. It is
  specified as lowercase base-16 digits of the unsigned value, not modelled
  character by character.
- NumericConvert.ToDecimalism: the model sums with exact integer powers into
  an unbounded integer. It agrees with the Java code while every power and
  partial sum is below 2^53. Beyond that, rounding in `Math.pow` and in the
  double-to-long conversion of `num += …` (NumericConvertUtil.java:52) is not
  modelled, and neither is saturation at the long range.
- NumericConvert.ToDecimalism: Java counts positions in UTF-16 code units
  (`length()`, `getChars`, the weight `buf.length - i - 1`). The model's
  strings are sequences of Unicode scalar values, so a character outside the
  Basic Multilingual Plane is one position here and two (a surrogate pair)
  in Java. For "1😀" in base 10, Java gives 100 and the model gives 10.
- NumericConvert.ToOtherBaseString: below -2^32 with a nonzero remainder, the
  Java code throws ArrayIndexOutOfBoundsException. The model returns
  `DigitIndexOutOfBounds` carrying the negative index.
- IDParseDate refers to `GenerateImpl.TIMESTAMP_LEFT_SHIFT` and `getEpoch()`,
  which this version of GenerateImpl does not define. Parse therefore takes the
  shift and the epoch as parameters. The `IDParseDate` object that holds a
  generator is not modelled.
- `java.util.Date` is the millisecond count it wraps.
- These parts of the library are not part of this model:
  - the builder `IDGenerateBuilder`;
  - the Spring configuration and property classes;
  - the random-UUID generator in the `java` package;
  - both `main` methods, which print to the console.

## Findings

| source | as written | input that shows it | evidently intended | confidence | as-written member | corrected member |
|---|---|---|---|---|---|---|
| src/main/java/com/v1ok/uuid/snowflake/GenerateImpl.java:98 | `timestampLeftShift = sequenceBits + dataCenterIdBits`, which is 17, so the timestamp field overlaps the data-center field | workerId 0, dataCenterId 1, clock readings at the epoch and then one millisecond later: both calls return 131072 (2^17) | `sequenceBits + workerIdBits + dataCenterIdBits` = 22, as the field comment (line 62) and the class comment state; ids then increase and generators with the same epoch never collide, as long as no call throws from the wait (an exception from the wait repeats ids in either layout, FailedWaitRepeatsId) | not executed | `Snowflake.AsWrittenRepeatsId` | `Snowflake.DocumentedIdsIncrease` |

=== FILE: generator.dfy ===
/**
  The snowflake generator as an object: its settings are fixed when it is
  built, and each call of NextIdToLong reads the clock and updates the two
  fields `sequence` and `lastTimestamp` in place. Every method is proved
  against the value-level model in module Snowflake.
 */
module SnowflakeGenerator {
  import opened Results
  import opened JavaLong
  import opened Snowflake

  /** `System.currentTimeMillis`, as the readings it will return from now on. */
  class Clock {
    var readings: seq<long>

    constructor(readings: seq<long>)
      ensures this.readings == readings
    {
      this.readings := readings;
    }

    /** timeGen: take the next reading. */
    method Now() returns (t: long)
      requires |readings| >= 1
      modifies this
      ensures t == old(readings)[0] && readings == old(readings)[1..]
    {
      t := readings[0];
      readings := readings[1..];
    }
  }

  class GenerateImpl {
    const sequenceBits: long
    const sequenceMask: long
    const twepoch: long
    const workerIdBits: long
    const dataCenterIdBits: long
    const workerIdShift: long
    const dataCenterIdShift: long
    const timestampLeftShift: long
    const workerId: long
    const dataCenterId: long
    const clock: Clock

    /** The sequence number within the current millisecond. */
    var sequence: long
    /** The millisecond of the last identifier, -1 before the first. */
    var lastTimestamp: long

    /** The settings the constructor computes, whatever ids it was given. */
    predicate Configured()
    {
      && sequenceBits == 12 && sequenceMask == 4095
      && workerIdBits == 5 && dataCenterIdBits == 5
      && Layout(workerIdShift, dataCenterIdShift, timestampLeftShift) == AS_WRITTEN
    }

    /** What a built generator keeps true between calls. */
    ghost predicate Valid()
      reads this
    {
      Configured() && ValidConfig(Settings()) && 0 <= sequence < 4096
    }

    function Settings(): Config
    {
      Config(twepoch, workerId, dataCenterId,
             Layout(workerIdShift, dataCenterIdShift, timestampLeftShift))
    }

    function Fields(): State
      reads this
    {
      State(sequence, lastTimestamp)
    }

    /** Sets the fields as the Java constructor does before its checks; the
        checks and the exception are in Create. */
    constructor(workerId: long, dataCenterId: long, twepoch: long, clock: Clock)
      ensures Configured()
      ensures Settings() == Config(twepoch, workerId, dataCenterId, AS_WRITTEN)
      ensures Fields() == INITIAL && this.clock == clock
    {
      var sequenceBits: long := 12;
      var workerIdBits: long := 5;
      var dataCenterIdBits: long := 5;
      this.sequenceBits := sequenceBits;
      this.sequenceMask := MaxForBits(12);
      this.workerIdBits := workerIdBits;
      this.dataCenterIdBits := dataCenterIdBits;
      this.twepoch := twepoch;
      this.workerId := workerId;
      this.dataCenterId := dataCenterId;
      this.workerIdShift := sequenceBits;
      this.dataCenterIdShift := sequenceBits + workerIdBits;
      this.timestampLeftShift := sequenceBits + dataCenterIdBits;
      this.clock := clock;
      this.sequence := 0;
      this.lastTimestamp := -1;
      Pow2Small();
    }

    /** `-1L ^ (-1L << workerIdBits)`: the largest value of workerIdBits bits. */
    function GetMaxWorkerId(): (r: long)
      requires 0 <= workerIdBits < 63
      ensures r == Pow2(workerIdBits) - 1
      ensures workerIdBits == 5 ==> r == 31
    {
      Pow2Small();
      MaxForBits(workerIdBits)
    }

    /** `-1L ^ (-1L << dataCenterIdBits)`. */
    function GetMaxDateCenterId(): (r: long)
      requires 0 <= dataCenterIdBits < 63
      ensures r == Pow2(dataCenterIdBits) - 1
      ensures dataCenterIdBits == 5 ==> r == 31
    {
      Pow2Small();
      MaxForBits(dataCenterIdBits)
    }

    /** The three-argument Java constructor: build, then refuse a worker id and
        then a data-center id outside 0..31 with IllegalArgumentException. */
    static method Create(workerId: long, dataCenterId: long, twepoch: long, clock: Clock)
      returns (r: Result<GenerateImpl, ConfigError>)
      ensures r.Err? <==> CheckIds(workerId, dataCenterId).Some?
      ensures r.Err? ==> r.error == CheckIds(workerId, dataCenterId).value
      ensures r.Ok? ==> && fresh(r.value) && r.value.Valid()
                        && r.value.Settings() == Config(twepoch, workerId, dataCenterId, AS_WRITTEN)
                        && r.value.Fields() == INITIAL && r.value.clock == clock
    {
      var g := new GenerateImpl(workerId, dataCenterId, twepoch, clock);
      if workerId > g.GetMaxWorkerId() || workerId < 0 {
        return Err(WorkerIdOutOfRange(g.GetMaxWorkerId()));
      }
      if dataCenterId > g.GetMaxDateCenterId() || dataCenterId < 0 {
        return Err(DataCenterIdOutOfRange(g.GetMaxDateCenterId()));
      }
      return Ok(g);
    }

    /** The two-argument Java constructor: the default epoch. */
    static method CreateDefault(workerId: long, dataCenterId: long, clock: Clock)
      returns (r: Result<GenerateImpl, ConfigError>)
      ensures r.Err? <==> CheckIds(workerId, dataCenterId).Some?
      ensures r.Err? ==> r.error == CheckIds(workerId, dataCenterId).value
      ensures r.Ok? ==> && fresh(r.value) && r.value.Valid()
                        && r.value.Settings() == Config(TIME_WHEN_EPOCH, workerId, dataCenterId, AS_WRITTEN)
                        && r.value.Fields() == INITIAL && r.value.clock == clock
    {
      r := Create(workerId, dataCenterId, TIME_WHEN_EPOCH, clock);
    }

    /** tilNextMillis: read the clock until it passes `lastTimestamp`,
        sleeping `lastTimestamp - timestamp` ms between readings; `sleep`
        throws IllegalArgumentException when that long is negative. */
    method TilNextMillis(lastTimestamp: long) returns (r: Result<long, GenError>)
      requires WaitEnds(clock.readings, lastTimestamp)
      modifies clock
      ensures r.Ok? ==> r.value > lastTimestamp
      ensures r == Wait(old(clock.readings), lastTimestamp)
      ensures clock.readings == old(clock.readings)[WaitStop(old(clock.readings), lastTimestamp) + 1..]
    {
      ghost var readings := clock.readings;
      ghost var stop := WaitStop(readings, lastTimestamp);
      ghost var k := 0;
      var timestamp := clock.Now();
      while timestamp <= lastTimestamp
        invariant 0 <= k <= stop && timestamp == readings[k]
        invariant clock.readings == readings[k + 1..]
        decreases |clock.readings|
      {
        var sleepTime := Wrap(lastTimestamp - timestamp);
        SleepTimeNegative(lastTimestamp, timestamp);
        if sleepTime < 0 {
          assert stop == k;
          return Err(NegativeSleep(sleepTime));
        }
        timestamp := clock.Now();
        k := k + 1;
      }
      assert stop == k;
      r := Ok(timestamp);
    }

    /** nextIdToLong, on the fields of this generator and the readings of its
        clock: exactly one step of NextId, the fields it leaves included when
        it throws. */
    method NextIdToLong() returns (r: Result<long, GenError>)
      requires Valid() && ClockSuffices(Fields(), clock.readings)
      modifies this, clock
      ensures Valid()
      ensures var m := NextId(Settings(), old(Fields()), old(clock.readings));
        && r == m.result && Fields() == m.next
        && clock.readings == old(clock.readings)[m.consumed..]
    {
      ghost var readings := clock.readings;
      var timestamp := clock.Now();
      if timestamp < lastTimestamp {
        return Err(ClockMovedBackwards(Wrap(lastTimestamp - timestamp)));
      }
      if lastTimestamp == timestamp {
        sequence := NextSequence(sequence);
        if sequence == 0 {
          var waited := TilNextMillis(lastTimestamp);
          ghost var i := WaitStop(readings[1..], lastTimestamp);
          assert readings[1..][i + 1..] == readings[2 + i..];
          if waited.Err? {
            return Err(waited.error);
          }
          timestamp := waited.value;
        }
      } else {
        sequence := 0;
      }
      lastTimestamp := timestamp;
      r := Ok(Compose(Settings(), timestamp, sequence));
    }

    /** nextIdToString: the identifier as `Long.toHexString` writes it. */
    method NextIdToString() returns (r: Result<string, GenError>)
      requires Valid() && ClockSuffices(Fields(), clock.readings)
      modifies this, clock
      ensures Valid()
      ensures var m := NextId(Settings(), old(Fields()), old(clock.readings));
        && (m.result.Err? ==> r == Err(m.result.error))
        && (m.result.Ok? ==> r == Ok(ToHexString(m.result.value)))
        && Fields() == m.next && clock.readings == old(clock.readings)[m.consumed..]
    {
      var id := NextIdToLong();
      match id
      case Err(e) => r := Err(e);
      case Ok(v) => r := Ok(ToHexString(v));
    }
  }
}

=== FILE: id_parse_date.dfy ===
/**
  IDParseDate.parse: the millisecond an identifier was issued, read back from
  its timestamp field as `(id >> shift) + epoch`. The shift and the epoch are
  parameters; `java.util.Date` is its millisecond count.
 */
module IdParseDate {
  import opened JavaLong
  import opened Snowflake

  /** `(id >> shift) + epoch` in 64-bit arithmetic. The arithmetic shift is
      a floor division by 2^shift, for negative ids too; without overflow the
      result is that quotient plus the epoch. */
  function Parse(id: long, shift: int, epoch: long): (r: long)
    ensures IsLong(id / Pow2(shift % 64) + epoch) ==> r == id / Pow2(shift % 64) + epoch
  {
    ShiftRightIsFloorDiv(id, shift);
    Wrap(ShiftRight(id, shift) + epoch)
  }

  lemma DivMonotone(a: int, b: int, d: int)
    requires a <= b && d >= 1
    ensures a / d <= b / d
  {
    var q1, q2 := a / d, b / d;
    if q1 > q2 {
      MulAtLeast(q1 - q2, d);
      assert false;
    }
  }

  /** A later identifier never parses to an earlier time, while the sum does
      not overflow. */
  lemma ParseMonotone(id1: long, id2: long, shift: int, epoch: long)
    requires id1 <= id2
    requires IsLong(id1 / Pow2(shift % 64) + epoch) && IsLong(id2 / Pow2(shift % 64) + epoch)
    ensures Parse(id1, shift, epoch) <= Parse(id2, shift, epoch)
  {
    DivMonotone(id1, id2, Pow2(shift % 64));
  }

  /** An identifier made of d above `shift` bits and `low` below them
      shifts right to d. */
  lemma ShiftOf(id: long, shift: nat, d: int, low: int)
    requires shift < 64 && 0 <= low < Pow2(shift) && id == d * Pow2(shift) + low
    ensures ShiftRight(id, shift) == d
  {
    assert shift % 64 == shift;
    DivModUnique(id, Pow2(shift), d, low);
    ShiftRightIsFloorDiv(id, shift);
  }

  /** Such an identifier parses to d plus the epoch. */
  lemma ParseOf(id: long, shift: nat, epoch: long, d: int, low: int)
    requires shift < 64 && 0 <= low < Pow2(shift) && id == d * Pow2(shift) + low
    requires IsLong(d + epoch)
    ensures Parse(id, shift, epoch) == d + epoch
  {
    ShiftOf(id, shift, d, low);
  }

  /** Parse undoes `(d << shift) | low` when the low bits fit below the
      shift: it returns d plus the epoch. */
  lemma ParseInverts(d: long, low: long, shift: nat, epoch: long)
    requires shift < 64 && IsLong(d * Pow2(shift)) && 0 <= low < Pow2(shift)
    requires IsLong(d + epoch)
    ensures Parse(LongOr(ShiftLeft(d, shift), low), shift, epoch) == d + epoch
  {
    OrShifted(d, shift, low);
    ParseOf(LongOr(ShiftLeft(d, shift), low), shift, epoch, d, low);
  }

  lemma HighPart(d: long, low: long, shift: nat)
    requires shift < 64 && IsLong(d * Pow2(shift)) && 0 <= low < Pow2(shift)
    ensures ShiftRight(LongOr(ShiftLeft(d, shift), low), shift) == d
  {
    OrShifted(d, shift, low);
    ShiftOf(LongOr(ShiftLeft(d, shift), low), shift, d, low);
  }

  /** Identifiers that differ only below the shift parse to the same time. */
  lemma ParseIgnoresLowBits(d: long, low1: long, low2: long, shift: nat, epoch: long)
    requires shift < 64 && IsLong(d * Pow2(shift))
    requires 0 <= low1 < Pow2(shift) && 0 <= low2 < Pow2(shift)
    ensures Parse(LongOr(ShiftLeft(d, shift), low1), shift, epoch)
         == Parse(LongOr(ShiftLeft(d, shift), low2), shift, epoch)
  {
    HighPart(d, low1, shift);
    HighPart(d, low2, shift);
  }

  /** In the documented layout, parsing with shift 22 and the generator's
      epoch recovers the millisecond the identifier was issued in. */
  lemma ParseDocumentedId(c: Config, timestamp: long, sequence: long)
    requires c.layout == DOCUMENTED && ValidConfig(c)
    requires c.twepoch <= timestamp && timestamp - c.twepoch < 0x200_0000_0000
    requires 0 <= sequence < 4096
    ensures Parse(Compose(c, timestamp, sequence), 22, c.twepoch) == timestamp
  {
    var delta := timestamp - c.twepoch;
    var low := (c.dataCenterId * 32 + c.workerId) * 4096 + sequence;
    var id := Compose(c, timestamp, sequence);
    DocumentedPacking(c, timestamp, sequence);
    assert id == Packed(delta, c.dataCenterId, c.workerId, sequence) == delta * 0x40_0000 + low;
    Pow2Medium();
    ParseOf(id, 22, c.twepoch, delta, low);
    assert delta + c.twepoch == timestamp;
  }

  /** With the computed timestamp shift of 17, the identifier data center 1
      issues at the epoch parses to one millisecond after it. */
  lemma ParseAsWrittenId()
    ensures var id := Compose(Config(TIME_WHEN_EPOCH, 0, 1, AS_WRITTEN), TIME_WHEN_EPOCH, 0);
      Parse(id, 17, TIME_WHEN_EPOCH) == TIME_WHEN_EPOCH + 1
  {
    AsWrittenNodesCollide();
    Pow2Medium();
    ParseOf(0x2_0000, 17, TIME_WHEN_EPOCH, 1, 0);
  }
}

=== FILE: java_long.dfy ===
/**
  Java's 64-bit `long` arithmetic on mathematical integers.

  A `long` is an integer in [-2^63, 2^63). The operators the identifier code
  uses are written out: results are truncated to 64 bits two's complement
  (`Wrap`), `<<` multiplies by a power of two and truncates, `>>` is the
  arithmetic shift (floor division by a power of two), `|` is the bitwise OR
  of two's-complement values, and `/` and `%` truncate toward zero.
 */
module JavaLong {

  const MIN_LONG: int := -0x8000_0000_0000_0000
  const MAX_LONG: int := 0x7FFF_FFFF_FFFF_FFFF
  const TWO_TO_64: int := 0x1_0000_0000_0000_0000

  /** The range of a `long`, for exact results that may fall outside it. */
  predicate IsLong(x: int) { MIN_LONG <= x <= MAX_LONG }

  type long = x: int | MIN_LONG <= x <= MAX_LONG

  /** 2^k. */
  function Pow2(k: nat): (r: nat)
    ensures r >= 1
  {
    if k == 0 then 1 else 2 * Pow2(k - 1)
  }

  /** The 64-bit two's-complement value of an exact integer result: what a Java
      `long` operation yields when the exact result overflows. */
  function Wrap(x: int): (r: long)
    ensures (x - r) % TWO_TO_64 == 0
    ensures IsLong(x) ==> r == x
  {
    (x - MIN_LONG) % TWO_TO_64 + MIN_LONG
  }

  /** Java `x << k` on a long: the shift distance is taken modulo 64. */
  function ShiftLeft(x: long, k: int): (r: long)
    ensures IsLong(x * Pow2(k % 64)) ==> r == x * Pow2(k % 64)
  {
    Wrap(x * Pow2(k % 64))
  }

  /** Java `x >> k` on a long: an arithmetic shift, which copies the sign bit
      into the vacated high bits, so a negative value shifts as the complement of
      the shifted complement. The shift distance is taken modulo 64. */
  function ShiftRight(x: long, k: int): (r: long)
    ensures 0 <= x ==> 0 <= r <= x
    ensures x < 0 ==> x <= r < 0
  {
    var d := Pow2(k % 64);
    DivBounds(if x >= 0 then x else Not(x), d);
    if x >= 0 then x / d else Not(Not(x) / d)
  }

  lemma DivBounds(n: int, d: int)
    requires 0 <= n && 1 <= d
    ensures 0 <= n / d <= n
  {}

  /** Java `~x`: the bitwise complement, so that `-1 ^ y == Not(y)`. */
  function Not(x: int): int { -x - 1 }

  /** Java's idiom `-1L ^ (-1L << bits)`: the largest value that fits in `bits`
      unsigned bits. */
  function MaxForBits(bits: nat): (r: long)
    requires bits < 63
    ensures r == Pow2(bits) - 1
  {
    PowMonotone(bits, 63);
    Pow2Top();
    Not(ShiftLeft(-1, bits))
  }

  /** A left shift that loses no bits is an exact multiplication. */
  lemma ShiftLeftExact(x: int, k: nat)
    requires k < 63 && 0 <= x < Pow2(63 - k)
    ensures IsLong(x) && ShiftLeft(x, k) == x * Pow2(k)
  {
    Pow2Add(63 - k, k);
    Pow2Top();
    PowMonotone(63 - k, 63);
    MulLess(x, Pow2(63 - k), Pow2(k));
  }

  lemma MulLess(a: int, b: int, c: int)
    requires 0 <= a < b && c >= 1
    ensures 0 <= a * c < b * c
  {}

  lemma {:induction false} Pow2Add(j: nat, k: nat)
    ensures Pow2(j + k) == Pow2(j) * Pow2(k)
  {
    if k > 0 {
      Pow2Add(j, k - 1);
      assert Pow2(j + k) == 2 * Pow2(j + k - 1);
    }
  }

  lemma Pow2Small()
    ensures Pow2(5) == 32 && Pow2(10) == 1024 && Pow2(12) == 4096
  {
    Pow2Add(5, 5);
    Pow2Add(10, 2);
  }

  lemma Pow2Medium()
    ensures Pow2(17) == 0x2_0000 && Pow2(22) == 0x40_0000
  {
    Pow2Small();
    Pow2Add(5, 12);
    Pow2Add(10, 12);
  }

  lemma Pow2Large()
    ensures Pow2(32) == 0x1_0000_0000 && Pow2(41) == 0x200_0000_0000
  {
    Pow2Small();
    Pow2Medium();
    Pow2Add(22, 10);
    Pow2Add(32, 5);
    Pow2Add(37, 4);
  }

  lemma Pow2Top()
    ensures Pow2(62) == 0x4000_0000_0000_0000 && Pow2(63) == 0x8000_0000_0000_0000
  {
    Pow2Medium();
    Pow2Large();
    Pow2Add(41, 21);
    Pow2Add(21, 1);
    Pow2Add(62, 1);
  }

  lemma PowMonotone(j: nat, k: nat)
    requires j <= k
    ensures Pow2(j) <= Pow2(k)
  {
    if j < k { PowMonotone(j, k - 1); }
  }

  /** Java `a | b` on two's-complement values, one bit at a time from the lowest:
      Euclidean `% 2` is the lowest bit and `/ 2` the arithmetic shift by one. */
  function Or(a: int, b: int): int
    decreases Abs(a) + Abs(b)
  {
    if a == 0 then b
    else if b == 0 then a
    else if a == -1 || b == -1 then -1
    else 2 * Or(a / 2, b / 2) + (if a % 2 == 1 || b % 2 == 1 then 1 else 0)
  }

  function Abs(x: int): nat { if x < 0 then -x else x }

  /** Java `a / b` on ints and longs: the quotient rounded toward zero. */
  function JavaDiv(a: int, b: int): (q: int)
    requires b > 0
    ensures a >= 0 ==> 0 <= q && q * b <= a < q * b + b
    ensures a < 0 ==> q <= 0 && q * b - b < a <= q * b
  {
    if a >= 0 then a / b
    else
      var n := -a;
      var m := n / b;
      assert n == m * b + n % b;
      assert (-m) * b == -(m * b);
      -m
  }

  /** Java `a % b`: the remainder takes the sign of the dividend. */
  function JavaRem(a: int, b: int): (r: int)
    requires b > 0
    ensures a == JavaDiv(a, b) * b + r
    ensures a >= 0 ==> 0 <= r < b
    ensures a < 0 ==> -b < r <= 0
  {
    if a >= 0 then a % b else -((-a) % b)
  }

  /** Java `a & b` on two's-complement values, one bit at a time from the lowest. */
  function And(a: int, b: int): int
    decreases Abs(a) + Abs(b)
  {
    if a == 0 || b == 0 then 0
    else if a == -1 then b
    else if b == -1 then a
    else 2 * And(a / 2, b / 2) + (if a % 2 == 1 && b % 2 == 1 then 1 else 0)
  }

  /** Java `a | b` on two longs, which is again a long. */
  function LongOr(a: long, b: long): (r: long)
    ensures a >= 0 && b >= 0 ==> r >= 0
  {
    OrIsLong(a, b);
    Or(a, b)
  }

  // ---- Ranges --------------------------------------------------------------

  /** The OR of two longs is a long: non-negative operands below 2^63 stay
      below it, and a negative operand makes the result negative but no
      smaller than the smaller operand. */
  lemma OrIsLong(a: long, b: long)
    ensures IsLong(Or(a, b))
    ensures a >= 0 && b >= 0 ==> Or(a, b) >= 0
  {
    if a >= 0 && b >= 0 {
      Pow2Top();
      OrBelow(a, b, 63);
    } else {
      OrNegative(a, b);
    }
  }

  lemma {:induction false} OrBelow(a: int, b: int, k: nat)
    requires 0 <= a < Pow2(k) && 0 <= b < Pow2(k)
    ensures 0 <= Or(a, b) < Pow2(k)
    decreases k
  {
    if a != 0 && b != 0 {
      assert k >= 1;
      OrBelow(a / 2, b / 2, k - 1);
    }
  }

  lemma {:induction false} OrNegative(a: int, b: int)
    requires a < 0 || b < 0
    ensures (if a < b then a else b) <= Or(a, b) < 0
    decreases Abs(a) + Abs(b)
  {
    if a != 0 && b != 0 && a != -1 && b != -1 {
      OrNegative(a / 2, b / 2);
    }
  }

  /** Masking with 2^k - 1 keeps the k low bits: the Euclidean remainder. */
  lemma {:induction false} AndLowMask(x: int, k: nat)
    ensures And(x, Pow2(k) - 1) == x % Pow2(k)
    decreases k
  {
    var n := Pow2(k);
    if k == 0 {
      assert n == 1;
    } else if x == 0 {
      DivModUnique(0, n, 0, 0);
    } else if x == -1 {
      DivModUnique(-1, n, -1, n - 1);
    } else {
      var p := Pow2(k - 1);
      var m := 2 * p - 1;
      assert n == 2 * p && n - 1 == m;
      assert m / 2 == p - 1 && m % 2 == 1;
      assert And(x, m) == 2 * And(x / 2, p - 1) + x % 2;
      AndLowMask(x / 2, k - 1);
      ModDouble(x, p);
    }
  }

  /** Splitting off the lowest bit of a remainder modulo 2p. */
  lemma ModDouble(x: int, p: int)
    requires p >= 1
    ensures x % (2 * p) == 2 * ((x / 2) % p) + x % 2
  {
    var q, r := x / 2, x % 2;
    var q1, r1 := q / p, q % p;
    assert x == 2 * q + r;
    assert q == q1 * p + r1;
    assert x == q1 * (2 * p) + (2 * r1 + r);
    assert 0 <= 2 * r1 + r < 2 * p;
    DivModUnique(x, 2 * p, q1, 2 * r1 + r);
  }

  /** Euclidean division has one quotient and one remainder. */
  lemma DivModUnique(x: int, d: int, q: int, r: int)
    requires d >= 1 && 0 <= r < d && x == q * d + r
    ensures x / d == q && x % d == r
  {
    var q', r' := x / d, x % d;
    assert (q' - q) * d == r - r' by {
      assert q' * d + r' == q * d + r;
    }
    if q' > q {
      MulAtLeast(q' - q, d);
    } else if q' < q {
      MulAtLeast(q - q', d);
    }
  }

  lemma MulAtLeast(k: int, d: int)
    requires k >= 1 && d >= 1
    ensures k * d >= d
  {}

  /** Truncating to 64 bits keeps the remainder modulo any power of two up to 2^64. */
  lemma WrapMod(x: int, k: nat)
    requires k <= 64
    ensures Wrap(x) % Pow2(k) == x % Pow2(k)
  {
    var p, m := Pow2(k), Pow2(64 - k);
    Pow2Sixty4();
    Pow2Add(k, 64 - k);
    var y := x - MIN_LONG;
    var j := y / TWO_TO_64;
    assert y == j * TWO_TO_64 + y % TWO_TO_64;
    var w := Wrap(x);
    assert x == w + j * TWO_TO_64;
    assert TWO_TO_64 == p * m;
    MulAssoc(j, m, p);
    ModShift(w, j * m, p);
  }

  lemma MulAssoc(a: int, b: int, c: int)
    ensures a * (c * b) == (a * b) * c
  {}

  lemma Pow2Sixty4()
    ensures Pow2(64) == TWO_TO_64
  {
    Pow2Top();
  }

  /** Adding a multiple of p does not change the remainder modulo p. */
  lemma ModShift(w: int, j: int, p: int)
    requires p >= 1
    ensures (w + j * p) % p == w % p
  {
    DivModUnique(w + j * p, p, w / p + j, w % p);
  }

  /** Java's `>>` is floor division by 2^k, for negative values too. */
  lemma ShiftRightIsFloorDiv(x: long, k: int)
    ensures ShiftRight(x, k) == x / Pow2(k % 64)
  {
    var d := Pow2(k % 64);
    if x < 0 {
      var y: int := -(x as int) - 1;
      var q, r := y / d, y % d;
      assert y == q * d + r;
      assert x == (-q - 1) * d + (d - 1 - r);
      DivModUnique(x, d, -q - 1, d - 1 - r);
    }
  }

  // ---- OR on fields that do not overlap ------------------------------------

  lemma {:induction false} OrSelf(a: int)
    ensures Or(a, a) == a
    decreases Abs(a)
  {
    if a != 0 && a != -1 {
      OrSelf(a / 2);
    }
  }

  /** A value that is a multiple of 2^k ORed with one below 2^k is their sum. */
  lemma {:induction false} OrShifted(a: int, k: nat, b: int)
    requires 0 <= b < Pow2(k)
    ensures Or(a * Pow2(k), b) == a * Pow2(k) + b
  {
    var high := a * Pow2(k);
    if high == 0 || b == 0 {
    } else {
      assert k >= 1;
      assert high == 2 * (a * Pow2(k - 1));
      assert high != -1;
      assert high % 2 == 0 && high / 2 == a * Pow2(k - 1);
      OrShifted(a, k - 1, b / 2);
      assert Or(high, b) == 2 * Or(a * Pow2(k - 1), b / 2) + b % 2;
    }
  }

  /** OR commutes with a common factor 2^k. */
  lemma {:induction false} OrScaled(a: int, b: int, k: nat)
    ensures Or(a * Pow2(k), b * Pow2(k)) == Or(a, b) * Pow2(k)
  {
    if k > 0 {
      var p := Pow2(k - 1);
      MulTwice(a, p); MulTwice(b, p); MulTwice(Or(a, b), p);
      OrDouble(a * p, b * p);
      OrScaled(a, b, k - 1);
    }
  }

  lemma MulTwice(a: int, p: int)
    ensures a * (2 * p) == 2 * (a * p)
  {}

  lemma OrDouble(x: int, y: int)
    ensures Or(2 * x, 2 * y) == 2 * Or(x, y)
  {
    if x != 0 && y != 0 {
      assert (2 * x) / 2 == x && (2 * x) % 2 == 0;
      assert (2 * y) / 2 == y && (2 * y) % 2 == 0;
    }
  }
}

=== FILE: numeric_convert.dfy ===
/**
  Rendering a Java `long` in a base from 2 to 36 and reading such a string back
  (NumericConvertUtil). Digits are `0`-`9` then `A`-`Z`. Rendering fills a
  64-character buffer from its end; reading sums each character's digit index
  times a power of the base, where a character outside the upper-case alphabet
  counts as 0 but still takes a digit position.
 */
module NumericConvert {
  import opened Results
  import opened JavaLong

  /** The digit symbols, in the order of their values. */
  const DIGITS: seq<char> := "0123456789ABCDEFGHIJKLMNOPQRSTUVWXYZ"

  /** Negative inputs are rendered after adding `2 * 0x7fffffff + 2`, that is 2^32. */
  const NEGATIVE_OFFSET: int := 2 * 0x7fffffff + 2

  /** Size of the character buffer the rendering fills from its end. */
  const BUFFER_SIZE: int := 64

  datatype ConvertError =
    | BaseOutOfRange(base: int)           // IllegalArgumentException from validate
    | DigitIndexOutOfBounds(index: int)   // ArrayIndexOutOfBoundsException on `digits`

  predicate ValidBase(base: int) { 2 <= base <= 36 }

  /** The guard both conversions run first. */
  function Validate(base: int): (r: Option<ConvertError>)
    ensures r == None <==> 2 <= base <= 36
    ensures r != None ==> r.value == BaseOutOfRange(base)
  {
    if base < 2 || base > 36 then Some(BaseOutOfRange(base)) else None
  }

  /** The k-th digit symbol, by character arithmetic. */
  function DigitChar(k: int): char
    requires 0 <= k < 36
  {
    if k < 10 then ('0' as int + k) as char else ('A' as int + k - 10) as char
  }

  /** What one character contributes as a digit: its index in DIGITS, and 0 for
      any other character (lower-case letters included). */
  function DigitValue(c: char): (v: nat)
    ensures v < 36
    ensures 'a' <= c <= 'z' ==> v == 0
  {
    if '0' <= c <= '9' then c as int - '0' as int
    else if 'A' <= c <= 'Z' then c as int - 'A' as int + 10
    else 0
  }

  /** c is one of the first `base` digit symbols. */
  predicate IsDigit(c: char, base: int)
  {
    ('0' <= c <= '9' || 'A' <= c <= 'Z') && DigitValue(c) < base
  }

  lemma TableAt(k: int)
    requires 0 <= k < 36
    ensures DIGITS[k] == DigitChar(k)
  {}

  lemma DigitCharValue(k: int)
    requires 0 <= k < 36
    ensures DigitValue(DigitChar(k)) == k
    ensures '0' <= DigitChar(k) <= '9' || 'A' <= DigitChar(k) <= 'Z'
  {}

  /** The table entry k is the symbol of value k. */
  lemma DigitAt(k: int)
    requires 0 <= k < 36
    ensures DIGITS[k] == DigitChar(k)
    ensures DigitValue(DIGITS[k]) == k && IsDigit(DIGITS[k], k + 1)
  {
    TableAt(k);
    DigitCharValue(k);
  }

  /** A symbol of the alphabet sits in the table at its DigitValue. */
  lemma SymbolAt(c: char)
    requires '0' <= c <= '9' || 'A' <= c <= 'Z'
    ensures DigitChar(DigitValue(c)) == c
  {}

  /** DigitValue is the position of the character in the digit table, the
      search toDecimalism performs; a character found nowhere in it counts 0. */
  lemma DigitValueIsIndex(c: char)
    ensures (exists k :: 0 <= k < |DIGITS| && DIGITS[k] == c) ==> DIGITS[DigitValue(c)] == c
    ensures (forall k :: 0 <= k < |DIGITS| ==> DIGITS[k] != c) ==> DigitValue(c) == 0
  {
    if '0' <= c <= '9' || 'A' <= c <= 'Z' {
      SymbolAt(c);
      TableAt(DigitValue(c));
    } else if exists k :: 0 <= k < |DIGITS| && DIGITS[k] == c {
      var k :| 0 <= k < |DIGITS| && DIGITS[k] == c;
      DigitAt(k);
    }
  }

  /** IsDigit is membership in the first `base` entries of the table. */
  lemma IsDigitInTable(c: char, base: int)
    requires ValidBase(base)
    ensures IsDigit(c, base) <==> exists k :: 0 <= k < base && DIGITS[k] == c
  {
    if IsDigit(c, base) {
      SymbolAt(c);
      TableAt(DigitValue(c));
    }
    if exists k :: 0 <= k < base && DIGITS[k] == c {
      var k :| 0 <= k < base && DIGITS[k] == c;
      DigitAt(k);
    }
  }

  function Pow(b: int, e: nat): int
  {
    if e == 0 then 1 else b * Pow(b, e - 1)
  }

  // ---- Specification ------------------------------------------------------

  /** The digits of n in the base, most significant first, without leading zeros. */
  function Encode(n: nat, base: int): (s: string)
    requires ValidBase(base)
    ensures |s| >= 1
    ensures forall i :: 0 <= i < |s| ==> IsDigit(s[i], base)
    ensures s[0] == '0' <==> n == 0
    ensures n == 0 <==> s == "0"
    decreases n
  {
    if n < base then
      DigitCharValue(n);
      [DigitChar(n)]
    else
      DivStep(n, base);
      DigitCharValue(n % base);
      Encode(n / base, base) + [DigitChar(n % base)]
  }

  /** One division step: the quotient is smaller but still positive. */
  lemma DivStep(n: nat, base: int)
    requires ValidBase(base) && n >= base
    ensures 1 <= n / base < n && 0 <= n % base < base
    ensures n == n / base * base + n % base
    ensures n / base <= n / 2
  {
    var q := n / base;
    assert q * base <= n;
    assert q * 2 <= q * base;
  }

  /** The quotient is positive exactly when the dividend reaches the divisor. */
  lemma QuotientPositive(n: nat, base: int)
    requires ValidBase(base)
    ensures n / base > 0 <==> n >= base
  {
    if n / base > 0 {
      assert (n / base) * base <= n;
    }
    if n >= base {
      DivStep(n, base);
    }
  }

  /** The number a string denotes in the base, each character weighted by the
      power of the base that its position from the right gives it. */
  function ValueOf(s: string, base: int): nat
    requires ValidBase(base)
  {
    if s == [] then 0 else ValueOf(s[..|s| - 1], base) * base + DigitValue(s[|s| - 1])
  }

  /** The strings Encode produces: digits of the base only, no leading zero. */
  predicate Canonical(s: string, base: int)
    requires ValidBase(base)
  {
    |s| >= 1 &&
    (forall i :: 0 <= i < |s| ==> IsDigit(s[i], base)) &&
    (s[0] == '0' ==> |s| == 1)
  }

  /** Reading back what Encode wrote gives the number again. */
  lemma {:induction false} DecodeEncode(n: nat, base: int)
    requires ValidBase(base)
    ensures ValueOf(Encode(n, base), base) == n
    decreases n
  {
    var s := Encode(n, base);
    if n < base {
      DigitCharValue(n);
      assert s == [DigitChar(n)];
      assert s[..0] == [];
    } else {
      var q, r := n / base, n % base;
      DivStep(n, base);
      var init := Encode(q, base);
      assert s == init + [DigitChar(r)];
      assert s[..|s| - 1] == init;
      DecodeEncode(q, base);
      DigitCharValue(r);
      assert ValueOf(s, base) == ValueOf(init, base) * base + DigitValue(DigitChar(r));
    }
  }

  /** Every canonical string is what Encode writes for its value. */
  lemma {:induction false} EncodeDecode(s: string, base: int)
    requires ValidBase(base) && Canonical(s, base)
    ensures Encode(ValueOf(s, base), base) == s
    decreases |s|
  {
    if |s| == 1 {
      EncodeDecodeDigit(s, base);
    } else {
      var init := s[..|s| - 1];
      CanonicalInit(s, base);
      CanonicalPositive(init, base);
      EncodeDecode(init, base);
      assert IsDigit(s[|s| - 1], base);
      EncodeDecodeStep(init, s[|s| - 1], base);
      assert s == init + [s[|s| - 1]];
    }
  }

  lemma EncodeDecodeDigit(s: string, base: int)
    requires ValidBase(base) && Canonical(s, base) && |s| == 1
    ensures Encode(ValueOf(s, base), base) == s
  {
    var c := s[0];
    assert IsDigit(c, base);
    SymbolAt(c);
    assert s[..0] == [];
    assert ValueOf(s, base) == DigitValue(c);
    assert s == [c];
  }

  lemma EncodeDecodeStep(init: string, c: char, base: int)
    requires ValidBase(base) && IsDigit(c, base)
    requires Encode(ValueOf(init, base), base) == init && ValueOf(init, base) >= 1
    ensures Encode(ValueOf(init + [c], base), base) == init + [c]
  {
    var v, u, d := ValueOf(init + [c], base), ValueOf(init, base), DigitValue(c);
    ValueOfSnoc(init, c, base);
    SymbolAt(c);
    EncodeAppend(v, u, d, base);
  }

  /** The value of a string with one more character on the right. */
  lemma ValueOfSnoc(init: string, c: char, base: int)
    requires ValidBase(base)
    ensures ValueOf(init + [c], base) == ValueOf(init, base) * base + DigitValue(c)
  {
    assert (init + [c])[..|init|] == init;
  }

  lemma CanonicalInit(s: string, base: int)
    requires ValidBase(base) && Canonical(s, base) && |s| >= 2
    ensures Canonical(s[..|s| - 1], base) && s[..|s| - 1][0] != '0'
  {
    var init := s[..|s| - 1];
    assert forall i :: 0 <= i < |init| ==> init[i] == s[i];
  }

  /** Appending a digit to the encoding of a positive number u encodes
      v = u * base + digit. */
  lemma EncodeAppend(v: nat, u: nat, d: nat, base: int)
    requires ValidBase(base) && u >= 1 && d < base && v == u * base + d
    ensures Encode(v, base) == Encode(u, base) + [DigitChar(d)]
  {
    DivModUnique(v, base, u, d);
    MulAtLeast(u, base);
  }

  /** A canonical string of two or more digits, or a single non-zero digit,
      denotes a positive number. */
  lemma {:induction false} CanonicalPositive(s: string, base: int)
    requires ValidBase(base) && Canonical(s, base) && s[0] != '0'
    ensures ValueOf(s, base) >= 1
    decreases |s|
  {
    var init := s[..|s| - 1];
    assert ValueOf(s, base) == ValueOf(init, base) * base + DigitValue(s[|s| - 1]);
    if |s| == 1 {
      assert init == [];
      assert IsDigit(s[0], base);
    } else {
      CanonicalInit(s, base);
      CanonicalPositive(init, base);
      MulAtLeast(ValueOf(init, base), base);
    }
  }

  /** A number below 2^k has at most k digits in any base from 2 up. */
  lemma {:induction false} EncodeLength(n: nat, base: int, k: nat)
    requires ValidBase(base) && 1 <= k && n < Pow2(k)
    ensures |Encode(n, base)| <= k
    decreases n
  {
    if n >= base {
      DivStep(n, base);
      assert n / 2 < Pow2(k - 1);
      EncodeLength(n / base, base, k - 1);
    }
  }

  /** A non-negative long has at most 63 digits in any base, so the 64-character
      buffer always has room. */
  lemma EncodeFitsBuffer(n: nat, base: int)
    requires ValidBase(base) && n <= MAX_LONG
    ensures |Encode(n, base)| <= 63
  {
    Pow2Top();
    EncodeLength(n, base, 63);
  }

  /** While the quotient is positive, the lowest digit is the remainder and the
      digits above it render the quotient. */
  lemma NextDigit(target: string, num: nat, base: int, tail: string)
    requires ValidBase(base) && JavaDiv(num, base) > 0
    requires target == Encode(num, base) + tail
    ensures JavaRem(num, base) == num % base && JavaDiv(num, base) == num / base
    ensures 0 <= num / base < num
    ensures |Encode(num / base, base)| + 1 == |Encode(num, base)|
    ensures target == Encode(num / base, base) + ([DigitChar(num % base)] + tail)
  {
    QuotientPositive(num, base);
    DivStep(num, base);
    var high, low := Encode(num / base, base), [DigitChar(num % base)];
    assert Encode(num, base) == high + low;
    assert (high + low) + tail == high + (low + tail);
  }

  /** Once the quotient is 0, the one digit left is the number itself, the
      leading digit of the rendering. */
  lemma LastDigit(target: string, num: nat, base: int, tail: string)
    requires ValidBase(base) && num / base <= 0
    requires target == Encode(num, base) + tail
    ensures JavaRem(num, base) == num < base
    ensures target == [DigitChar(num)] + tail
  {
    QuotientPositive(num, base);
    DivModUnique(num, base, 0, num);
  }

  // ---- The two conversions ------------------------------------------------

  /** The number toOtherBaseString renders: a negative input is moved up by 2^32. */
  function Shifted(n: long): int
  {
    if n < 0 then n + NEGATIVE_OFFSET else n
  }

  /** Non-negative inputs are rendered as they are, inputs from -2^32 up to -1
      as their value plus 2^32, and only inputs below -2^32 stay negative. */
  lemma ShiftedCases(n: long)
    ensures n >= 0 ==> Shifted(n) == n
    ensures -NEGATIVE_OFFSET <= n < 0 ==> 0 <= Shifted(n) < NEGATIVE_OFFSET && Shifted(n) == n + 0x1_0000_0000
    ensures Shifted(n) < 0 <==> n < -NEGATIVE_OFFSET
  {}

  /** toOtherBaseString: the digits of `n` in `base`, a negative `n` being
      shifted up by 2^32 first. Below -2^32 the shifted value is still negative:
      the loop does not run, and the one digit written is `digits[num % base]`
      with Java's remainder, which is "0" when the remainder is 0 and an index
      out of bounds otherwise. */
  method ToOtherBaseString(n: long, base: int) returns (r: Result<string, ConvertError>)
    ensures !ValidBase(base) ==> r == Err(BaseOutOfRange(base))
    ensures ValidBase(base) && Shifted(n) >= 0 ==> r == Ok(Encode(Shifted(n), base))
    ensures ValidBase(base) && Shifted(n) < 0 ==>
      var rem := JavaRem(Shifted(n), base);
      r == if rem == 0 then Ok("0") else Err(DigitIndexOutOfBounds(rem))
    ensures r.Ok? ==> 1 <= |r.value| < BUFFER_SIZE
  {
    var invalid := Validate(base);
    if invalid.Some? {
      return Err(invalid.value);
    }
    var num: int;
    if n < 0 {
      num := 2 * 0x7fffffff + n + 2;
    } else {
      num := n;
    }
    var buf := new char[BUFFER_SIZE];
    var charPos := BUFFER_SIZE;
    if num < 0 {
      // Below -2^32 the loop guard `num / base > 0` is false at once.
      var index := JavaRem(num, base);
      if index < 0 {
        return Err(DigitIndexOutOfBounds(index));
      }
      TableAt(0);
      charPos := charPos - 1;
      buf[charPos] := DIGITS[index];
      assert buf[charPos..] == "0";
      return Ok(buf[charPos..]);
    }
    charPos := WriteDigits(buf, num, base);
    r := Ok(buf[charPos..]);
  }

  /** The digit loop of toOtherBaseString and the final write after it: the
      digits of `num`, lowest first, are stored backwards from the end of `buf`. */
  method WriteDigits(buf: array<char>, num: long, base: int) returns (charPos: int)
    requires ValidBase(base) && 0 <= num && buf.Length == BUFFER_SIZE
    modifies buf
    ensures 1 <= charPos < BUFFER_SIZE
    ensures buf[charPos..] == Encode(num, base)
  {
    charPos := BUFFER_SIZE;
    var num := num;
    EncodeFitsBuffer(num, base);
    ghost var target := Encode(num, base);
    while JavaDiv(num, base) > 0
      invariant 0 <= num && 1 + |Encode(num, base)| <= charPos <= BUFFER_SIZE
      invariant target == Encode(num, base) + buf[charPos..]
      decreases num
    {
      ghost var written := buf[charPos..];
      NextDigit(target, num, base, written);
      charPos := charPos - 1;
      TableAt(num % base);
      buf[charPos] := DIGITS[JavaRem(num, base)];
      assert buf[charPos..] == [DigitChar(num % base)] + written;
      num := JavaDiv(num, base);
    }
    var index := JavaRem(num, base);
    ghost var written := buf[charPos..];
    LastDigit(target, num, base, written);
    charPos := charPos - 1;
    TableAt(index);
    buf[charPos] := DIGITS[index];
    assert buf[charPos..] == [DigitChar(index)] + written;
  }

  /** toDecimalism: the sum over the characters of their digit index times
      base^(characters to their right), found by searching the digit table. */
  method ToDecimalism(str: string, base: int) returns (r: Result<int, ConvertError>)
    ensures !ValidBase(base) ==> r == Err(BaseOutOfRange(base))
    ensures ValidBase(base) ==> r == Ok(ValueOf(str, base))
  {
    var invalid := Validate(base);
    if invalid.Some? {
      return Err(invalid.value);
    }
    var num := 0;
    var i := 0;
    while i < |str|
      invariant 0 <= i <= |str|
      invariant num == ValueOf(str[..i], base) * Pow(base, |str| - i)
    {
      var c := str[i];
      var j := 0;
      ghost var before := num;
      while j < |DIGITS|
        invariant 0 <= j <= |DIGITS|
        invariant forall k :: 0 <= k < j ==> DIGITS[k] != c
        invariant num == before
      {
        if DIGITS[j] == c {
          num := num + j * Pow(base, |str| - i - 1);
          break;
        }
        j := j + 1;
      }
      SearchFinds(c, j);
      assert num == before + DigitValue(c) * Pow(base, |str| - i - 1);
      AppendDigit(str, i, base, before);
      i := i + 1;
    }
    assert str[..i] == str;
    r := Ok(num);
  }

  /** The table search stops at the character's digit value, or runs off the
      end of the table for a character whose digit value is 0. */
  lemma SearchFinds(c: char, j: int)
    requires 0 <= j <= |DIGITS|
    requires j < |DIGITS| ==> DIGITS[j] == c
    requires forall k :: 0 <= k < j ==> DIGITS[k] != c
    ensures j < |DIGITS| ==> DigitValue(c) == j
    ensures j == |DIGITS| ==> DigitValue(c) == 0
  {
    if j < |DIGITS| {
      DigitAt(j);
    } else {
      DigitValueIsIndex(c);
    }
  }

  /** The loop step of ToDecimalism: adding the next character's weighted digit
      keeps the running sum equal to the prefix's value times the remaining power. */
  lemma AppendDigit(str: string, i: int, base: int, before: int)
    requires ValidBase(base) && 0 <= i < |str|
    requires before == ValueOf(str[..i], base) * Pow(base, |str| - i)
    ensures before + DigitValue(str[i]) * Pow(base, |str| - i - 1)
         == ValueOf(str[..i + 1], base) * Pow(base, |str| - (i + 1))
  {
    var q := Pow(base, |str| - i - 1);
    var v := ValueOf(str[..i], base);
    var d := DigitValue(str[i]);
    assert str[..i + 1][..i] == str[..i];
    assert ValueOf(str[..i + 1], base) == v * base + d;
    assert Pow(base, |str| - i) == base * q;
    Distribute(v, base, d, q);
  }

  lemma Distribute(v: int, b: int, d: int, q: int)
    ensures v * (b * q) + d * q == (v * b + d) * q
  {}
}

=== FILE: results.dfy ===
/** Success-or-error values standing in for the exceptions the Java code throws. */
module Results {

  datatype Option<+T> = None | Some(value: T)

  datatype Result<+T, +E> = Ok(value: T) | Err(error: E)
}

=== FILE: snowflake.dfy ===
/**
  The snowflake identifier generator as values: the settings a generator is
  built with, the two fields one call to nextIdToLong changes, the identifier
  it assembles, and the clock readings the call consumes.

  An identifier ORs four fields into a long: the milliseconds since the epoch
  shifted by `timestampLeftShift`, the data-center id shifted by
  `dataCenterIdShift`, the worker id shifted by `workerIdShift`, and the
  12-bit sequence. The constructor computes the timestamp shift as
  sequenceBits + dataCenterIdBits = 17 (AS_WRITTEN), while the field comments
  describe 5 + 5 + 12 = 22 (DOCUMENTED); every function here takes the shifts
  as a parameter, and the lemmas say which of the two layouts they hold for.
 */
module Snowflake {
  import opened Results
  import opened JavaLong
  import NumericConvert

  /** The default epoch, 2018-11-17, in milliseconds. */
  const TIME_WHEN_EPOCH: long := 1542444628916

  const SEQUENCE_BITS: nat := 12
  const WORKER_ID_BITS: nat := 5
  const DATA_CENTER_ID_BITS: nat := 5

  /** `-1L ^ (-1L << sequenceBits)`, the largest sequence value. */
  const SEQUENCE_MASK: long := MaxForBits(SEQUENCE_BITS)

  /** The shift distances of the three upper fields. */
  datatype Layout = Layout(workerIdShift: int, dataCenterIdShift: int, timestampLeftShift: int)

  /** The shifts the constructor computes: 12, 12 + 5 and 12 + 5. */
  const AS_WRITTEN: Layout := Layout(12, 17, 17)

  /** The shifts the field comments describe: 12, 12 + 5 and 12 + 5 + 5. */
  const DOCUMENTED: Layout := Layout(12, 17, 22)

  /** What a generator is built with. */
  datatype Config = Config(twepoch: long, workerId: long, dataCenterId: long, layout: Layout)

  /** The two fields nextIdToLong updates. */
  datatype State = State(sequence: long, lastTimestamp: long)

  /** A new generator: sequence 0, and no identifier issued yet. */
  const INITIAL: State := State(0, -1)

  /** The IllegalArgumentException of the constructor, with the maximum it reports. */
  datatype ConfigError =
    | WorkerIdOutOfRange(max: int)
    | DataCenterIdOutOfRange(max: int)

  /** What nextIdToLong throws: the RuntimeException for a clock that moved
      back, with the milliseconds it reports, and the IllegalArgumentException
      of `sleep` when the wait's sleep time overflowed to a negative value. */
  datatype GenError =
    | ClockMovedBackwards(millis: long)
    | NegativeSleep(millis: long)

  /** One call: the identifier or the exception, the fields it leaves behind,
      and how many clock readings it took. */
  datatype Call = Call(result: Result<long, GenError>, next: State, consumed: nat)

  // ---- Construction -------------------------------------------------------

  /** The constructor's checks: the worker id first, then the data-center id,
      each against `-1L ^ (-1L << 5)`. */
  function CheckIds(workerId: long, dataCenterId: long): (r: Option<ConfigError>)
    ensures r == None <==> 0 <= workerId <= 31 && 0 <= dataCenterId <= 31
    ensures !(0 <= workerId <= 31) ==> r == Some(WorkerIdOutOfRange(31))
    ensures 0 <= workerId <= 31 && !(0 <= dataCenterId <= 31) ==> r == Some(DataCenterIdOutOfRange(31))
  {
    Pow2Small();
    var maxWorkerId := MaxForBits(WORKER_ID_BITS);
    var maxDataCenterId := MaxForBits(DATA_CENTER_ID_BITS);
    if workerId > maxWorkerId || workerId < 0 then Some(WorkerIdOutOfRange(maxWorkerId))
    else if dataCenterId > maxDataCenterId || dataCenterId < 0 then Some(DataCenterIdOutOfRange(maxDataCenterId))
    else None
  }

  /** The settings the constructor accepts. */
  predicate ValidConfig(c: Config)
  {
    0 <= c.workerId <= 31 && 0 <= c.dataCenterId <= 31
  }

  // ---- The identifier -----------------------------------------------------

  /** `((timestamp - twepoch) << timestampLeftShift) | (dataCenterId << dataCenterIdShift)
      | (workerId << workerIdShift) | sequence`, in 64-bit arithmetic. */
  function Compose(c: Config, timestamp: long, sequence: long): (id: long)
    // With every shift between 12 and 63, as in both layouts, the low 12 bits
    // of an identifier are its sequence number.
    ensures && 12 <= c.layout.workerIdShift < 64
            && 12 <= c.layout.dataCenterIdShift < 64
            && 12 <= c.layout.timestampLeftShift < 64
            && 0 <= sequence < 4096
            ==> id % 4096 == sequence
  {
    var l := c.layout;
    SequenceInLowBits(Wrap(timestamp - c.twepoch), l.timestampLeftShift,
                      c.dataCenterId, l.dataCenterIdShift,
                      c.workerId, l.workerIdShift, sequence);
    LongOr(LongOr(LongOr(ShiftLeft(Wrap(timestamp - c.twepoch), l.timestampLeftShift),
                         ShiftLeft(c.dataCenterId, l.dataCenterIdShift)),
                  ShiftLeft(c.workerId, l.workerIdShift)),
           sequence)
  }

  /** The value the fields make when none of them overlaps another: the
      documented layout read as a mixed-radix number. */
  function Packed(delta: int, dataCenterId: int, workerId: int, sequence: int): int
  {
    ((delta * 32 + dataCenterId) * 32 + workerId) * 4096 + sequence
  }

  // ---- One call of nextIdToLong -------------------------------------------

  /** `(sequence + 1) & sequenceMask`: the next sequence number, wrapping to 0
      after 4095. */
  function NextSequence(sequence: long): (r: long)
    ensures r == (sequence + 1) % 4096
  {
    Pow2Small();
    AndLowMask(Wrap(sequence + 1), SEQUENCE_BITS);
    WrapMod(sequence + 1, SEQUENCE_BITS);
    And(Wrap(sequence + 1), SEQUENCE_MASK)
  }

  /** The sleep time tilNextMillis computes for a reading not later than
      `last`, as a long: negative when the difference overflows. */
  function SleepTime(last: long, t: long): long
  {
    Wrap(last - t)
  }

  /** tilNextMillis stops at reading t: it is later than `last`, or it is so
      far back that the sleep time overflows and the sleep throws. */
  predicate StopsAt(t: long, last: long)
  {
    t > last || last - t > MAX_LONG
  }

  /** The sleep time is negative exactly when the difference exceeds the
      long range, which needs a reading more than 2^63 - 1 ms before `last`. */
  lemma SleepTimeNegative(last: long, t: long)
    requires t <= last
    ensures SleepTime(last, t) < 0 <==> last - t > MAX_LONG
    ensures SleepTime(last, t) < 0 ==> t < 0 <= last
  {
    if last - t > MAX_LONG {
      assert SleepTime(last, t) == last - t - TWO_TO_64;
    }
  }

  /** Below 4095 the next sequence number is one more. */
  lemma SequenceIncrements(sequence: long)
    requires 0 <= sequence < 4095
    ensures NextSequence(sequence) == sequence + 1
  {
    DivModUnique(sequence + 1, 4096, 0, sequence + 1);
    assert NextSequence(sequence) == (sequence + 1) % 4096;
  }

  /** After 4095 the sequence wraps to 0. */
  lemma SequenceWraps(sequence: long)
    requires sequence == 4095
    ensures NextSequence(sequence) == 0
  {
    assert (sequence + 1) % 4096 == 0;
  }

  /** Some reading in the sequence stops the wait. */
  predicate WaitEnds(readings: seq<long>, last: long)
  {
    exists i :: 0 <= i < |readings| && StopsAt(readings[i], last)
  }

  /** The position of the first reading that stops the wait: where
      tilNextMillis returns or throws. */
  function WaitStop(readings: seq<long>, last: long): (i: nat)
    requires WaitEnds(readings, last)
    ensures i < |readings| && StopsAt(readings[i], last)
    ensures forall j :: 0 <= j < i ==> readings[j] <= last && last - readings[j] <= MAX_LONG
    decreases |readings|
  {
    if StopsAt(readings[0], last) then 0
    else
      WaitEndsTail(readings, last);
      1 + WaitStop(readings[1..], last)
  }

  lemma WaitEndsTail(readings: seq<long>, last: long)
    requires WaitEnds(readings, last) && |readings| >= 1 && !StopsAt(readings[0], last)
    ensures WaitEnds(readings[1..], last)
  {
    var i :| 0 <= i < |readings| && StopsAt(readings[i], last);
    assert readings[1..][i - 1] == readings[i];
  }

  /** tilNextMillis on the readings: the first later reading, or the
      exception of the sleep that preceded it. */
  function Wait(readings: seq<long>, last: long): (r: Result<long, GenError>)
    requires WaitEnds(readings, last)
    ensures r.Ok? ==> r.value > last
    ensures r.Ok? <==> readings[WaitStop(readings, last)] > last
    ensures r.Ok? ==> r.value == readings[WaitStop(readings, last)]
    ensures r.Err? ==> r.error == NegativeSleep(SleepTime(last, readings[WaitStop(readings, last)]))
    ensures r.Err? ==> r.error.NegativeSleep? && r.error.millis < 0
  {
    var t := readings[WaitStop(readings, last)];
    if t > last then Ok(t)
    else
      SleepTimeNegative(last, t);
      Err(NegativeSleep(SleepTime(last, t)))
  }

  /** The sequence wraps in this call: the first reading repeats the last
      timestamp and the sequence was at 4095. */
  predicate Overflows(st: State, readings: seq<long>)
  {
    |readings| >= 1 && readings[0] == st.lastTimestamp && NextSequence(st.sequence) == 0
  }

  /** The clock can serve the call: one reading, and when the sequence wraps, a
      reading at which tilNextMillis stops. */
  predicate ClockSuffices(st: State, readings: seq<long>)
  {
    |readings| >= 1 &&
    (Overflows(st, readings) ==> WaitEnds(readings[1..], st.lastTimestamp))
  }

  /** nextIdToLong: refuse a clock that went back; in the same millisecond
      advance the sequence, waiting for the next millisecond when it wraps;
      in a later millisecond restart the sequence at 0; then record the
      timestamp and assemble the identifier. An exception from the wait
      leaves the sequence already reset to 0 and `lastTimestamp` as it was. */
  function NextId(c: Config, st: State, readings: seq<long>): (r: Call)
    requires ClockSuffices(st, readings)
    ensures 1 <= r.consumed <= |readings|
    ensures readings[0] < st.lastTimestamp ==> r.result.Err? && r.next == st && r.consumed == 1
    ensures readings[0] < st.lastTimestamp ==>
      r.result == Err(ClockMovedBackwards(Wrap(st.lastTimestamp - readings[0])))
    ensures readings[0] < st.lastTimestamp && readings[0] >= 0 ==>
      r.result == Err(ClockMovedBackwards(st.lastTimestamp - readings[0]))
    ensures r.result.Err? ==> r.next.lastTimestamp == st.lastTimestamp
    ensures r.result.Ok? ==>
      && r.next.lastTimestamp == readings[r.consumed - 1]
      && st.lastTimestamp <= r.next.lastTimestamp
      && 0 <= r.next.sequence < 4096
      && r.result.value == Compose(c, r.next.lastTimestamp, r.next.sequence)
    ensures r.result.Ok? && r.next.lastTimestamp == st.lastTimestamp ==>
      r.next.sequence == NextSequence(st.sequence) != 0
    ensures r.result.Ok? && r.next.lastTimestamp != st.lastTimestamp ==>
      r.next.sequence == 0
    // A later reading is used as it is, with sequence 0.
    ensures readings[0] > st.lastTimestamp ==>
      r == Call(Ok(Compose(c, readings[0], 0)), State(0, readings[0]), 1)
    // A reading that repeats the millisecond keeps it while the sequence does not wrap.
    ensures readings[0] == st.lastTimestamp && !Overflows(st, readings) ==>
      var s := NextSequence(st.sequence);
      r == Call(Ok(Compose(c, readings[0], s)), State(s, readings[0]), 1)
  {
    var timestamp := readings[0];
    if timestamp < st.lastTimestamp then
      Call(Err(ClockMovedBackwards(Wrap(st.lastTimestamp - timestamp))), st, 1)
    else if st.lastTimestamp == timestamp then
      var sequence := NextSequence(st.sequence);
      if sequence == 0 then
        var w := AfterWait(c, st.lastTimestamp, readings[1..]);
        assert readings[1..][w.consumed - 1] == readings[w.consumed];
        Call(w.result, w.next, 1 + w.consumed)
      else
        Call(Ok(Compose(c, timestamp, sequence)), State(sequence, timestamp), 1)
    else
      Call(Ok(Compose(c, timestamp, 0)), State(0, timestamp), 1)
  }

  /** The rest of a call whose sequence wrapped: wait for a later reading,
      then issue sequence 0 in it; the sequence stays reset when the wait throws. */
  function AfterWait(c: Config, last: long, readings: seq<long>): (r: Call)
    requires WaitEnds(readings, last)
    ensures r.consumed == 1 + WaitStop(readings, last) <= |readings|
    ensures r.result.Err? ==> r.next == State(0, last)
    ensures r.result.Ok? ==>
      && r.next == State(0, readings[r.consumed - 1]) && r.next.lastTimestamp > last
      && r.result.value == Compose(c, r.next.lastTimestamp, 0)
  {
    var i := WaitStop(readings, last);
    match Wait(readings, last)
    case Ok(later) => Call(Ok(Compose(c, later, 0)), State(0, later), 1 + i)
    case Err(e) => Call(Err(e), State(0, last), 1 + i)
  }

  // ---- What one call does to the fields -----------------------------------

  /** When the sequence wraps, the call waits: it issues sequence 0 in the
      first later millisecond, or, when a reading so far back that the sleep
      time overflows comes first, throws with the sequence reset and the
      millisecond kept. */
  lemma OverflowWaits(c: Config, st: State, readings: seq<long>)
    requires ClockSuffices(st, readings) && Overflows(st, readings)
    ensures var r := NextId(c, st, readings);
      var i := WaitStop(readings[1..], st.lastTimestamp);
      var t := readings[1 + i];
      && r.consumed == 2 + i
      && (forall j :: 1 <= j < 1 + i ==> readings[j] <= st.lastTimestamp)
      && (t > st.lastTimestamp ==> r == Call(Ok(Compose(c, t, 0)), State(0, t), 2 + i))
      && (t <= st.lastTimestamp ==>
            && st.lastTimestamp - t > MAX_LONG
            && r == Call(Err(NegativeSleep(SleepTime(st.lastTimestamp, t))), State(0, st.lastTimestamp), 2 + i))
  {
    var i := WaitStop(readings[1..], st.lastTimestamp);
    var t := readings[1 + i];
    assert readings[1..][i] == t;
    forall j | 1 <= j < 1 + i
      ensures readings[j] <= st.lastTimestamp
    {
      assert readings[1..][j - 1] == readings[j];
    }
    if t <= st.lastTimestamp {
      SleepTimeNegative(st.lastTimestamp, t);
    }
  }

  /** The first call of a new generator starts the sequence at 0. */
  lemma FirstCallResets(c: Config, readings: seq<long>)
    requires |readings| >= 1 && readings[0] >= 0
    ensures NextId(c, INITIAL, readings).result.Ok?
    ensures NextId(c, INITIAL, readings).next == State(0, readings[0])
  {}

  /** Every successful call moves the pair (lastTimestamp, sequence) strictly
      forward in lexicographic order. */
  lemma NextIdAdvances(c: Config, st: State, readings: seq<long>)
    requires ClockSuffices(st, readings) && 0 <= st.sequence < 4096
    requires NextId(c, st, readings).result.Ok?
    ensures var n := NextId(c, st, readings).next;
      st.lastTimestamp < n.lastTimestamp ||
      (st.lastTimestamp == n.lastTimestamp && st.sequence < n.sequence)
  {
    var n := NextId(c, st, readings).next;
    if n.lastTimestamp == st.lastTimestamp {
      if st.sequence == 4095 {
        DivModUnique(4096, 4096, 1, 0);
        assert false;
      }
      DivModUnique(st.sequence + 1, 4096, 0, st.sequence + 1);
    }
  }

  /** A sleep that throws leaves the generator at sequence 0 in a millisecond
      it had counted up to 4095: the next call in that millisecond returns
      sequence 1 again, the identifier the call from (0, lastTimestamp)
      returned on the way. */
  lemma FailedWaitRepeatsId(c: Config, st: State, readings: seq<long>)
    requires st.sequence == 4095 && |readings| == 2
    requires readings[0] == st.lastTimestamp && st.lastTimestamp - readings[1] > MAX_LONG
    ensures ClockSuffices(st, readings)
    ensures var failed := NextId(c, st, readings);
      && failed.result.Err? && failed.result.error.NegativeSleep?
      && failed.next == State(0, st.lastTimestamp)
      && NextId(c, failed.next, [st.lastTimestamp]).result == Ok(Compose(c, st.lastTimestamp, 1))
  {
    FailedWait(c, st, readings);
    SameMillisecondAgain(c, State(0, st.lastTimestamp), [st.lastTimestamp]);
  }

  lemma FailedWait(c: Config, st: State, readings: seq<long>)
    requires st.sequence == 4095 && |readings| == 2
    requires readings[0] == st.lastTimestamp && st.lastTimestamp - readings[1] > MAX_LONG
    ensures ClockSuffices(st, readings)
    ensures var failed := NextId(c, st, readings);
      && failed.result.Err? && failed.result.error.NegativeSleep?
      && failed.next == State(0, st.lastTimestamp)
  {
    SequenceWraps(st.sequence);
    assert Overflows(st, readings);
    assert StopsAt(readings[1..][0], st.lastTimestamp);
    assert WaitStop(readings[1..], st.lastTimestamp) == 0;
    OverflowWaits(c, st, readings);
  }

  lemma SameMillisecondAgain(c: Config, st: State, readings: seq<long>)
    requires 0 <= st.sequence < 4095 && readings == [st.lastTimestamp]
    ensures ClockSuffices(st, readings)
    ensures NextId(c, st, readings).result == Ok(Compose(c, st.lastTimestamp, st.sequence + 1))
  {
    SequenceIncrements(st.sequence);
    assert !Overflows(st, readings);
  }

  // ---- The low bits -------------------------------------------------------

  /** A field shifted left by 12 or more bits is a multiple of 4096, also after
      truncation to 64 bits. */
  lemma ShiftedField(x: long, k: int)
    requires 12 <= k < 64
    ensures ShiftLeft(x, k) % 4096 == 0
  {
    assert k % 64 == k;
    var p, q := Pow2(12), Pow2(k - 12);
    Pow2Add(12, k - 12);
    var high := x * q;
    var n := x * Pow2(k);
    MulAssoc(x, q, p);
    assert n == high * p;
    WrapMod(n, 12);
    ModShift(0, high, p);
    assert ShiftLeft(x, k) % p == 0;
    Pow2Small();
  }

  /** OR of two multiples of 4096 is one too. */
  lemma OrMultiples(a: int, b: int)
    requires a % 4096 == 0 && b % 4096 == 0
    ensures Or(a, b) % 4096 == 0
  {
    Pow2Small();
    var p := Pow2(12);
    assert a == (a / p) * p && b == (b / p) * p;
    OrScaled(a / p, b / p, 12);
    ModShift(0, Or(a / p, b / p), p);
  }

  /** Three fields shifted by 12 bits or more, ORed with a sequence below
      4096, keep the sequence in the low 12 bits. */
  lemma SequenceInLowBits(x: long, kx: int, y: long, ky: int, z: long, kz: int, sequence: long)
    ensures && 12 <= kx < 64 && 12 <= ky < 64 && 12 <= kz < 64 && 0 <= sequence < 4096
            ==> LongOr(LongOr(LongOr(ShiftLeft(x, kx), ShiftLeft(y, ky)), ShiftLeft(z, kz)), sequence) % 4096
                == sequence
  {
    if 12 <= kx < 64 && 12 <= ky < 64 && 12 <= kz < 64 && 0 <= sequence < 4096 {
      var t, d, w := ShiftLeft(x, kx), ShiftLeft(y, ky), ShiftLeft(z, kz);
      ShiftedField(x, kx);
      ShiftedField(y, ky);
      ShiftedField(z, kz);
      OrMultiples(t, d);
      var td := LongOr(t, d);
      OrMultiples(td, w);
      var tdw := LongOr(td, w);
      Pow2Small();
      var high := tdw / 4096;
      assert tdw == high * 4096;
      OrShifted(high, 12, sequence);
      DivModUnique(high * 4096 + sequence, 4096, high, sequence);
    }
  }

  // ---- The documented layout ----------------------------------------------

  /** Two fields that meet without overlap: `hi` above `bits` bits holding
      `lo`, both shifted by k more, OR to their sum. */
  lemma OrFields(hi: int, lo: int, bits: nat, k: nat, m: int, p: int)
    requires m == Pow2(bits) && p == Pow2(k) && 0 <= lo < m
    ensures Or(hi * (m * p), lo * p) == (hi * m + lo) * p
  {
    var a := hi * m;
    OrScaled(a, lo, k);
    assert Or(a * p, lo * p) == Or(a, lo) * p;
    OrShifted(hi, bits, lo);
    assert Or(a, lo) == a + lo;
    MulAssoc(hi, m, p);
    assert hi * (m * p) == a * p;
  }

  /** The three shifted fields of the documented layout lose no bits. */
  lemma DocumentedFields(delta: long, dataCenterId: long, workerId: long)
    requires 0 <= delta < 0x200_0000_0000 && 0 <= dataCenterId <= 31 && 0 <= workerId <= 31
    ensures ShiftLeft(delta, 22) == delta * 0x40_0000
    ensures ShiftLeft(dataCenterId, 17) == dataCenterId * 0x2_0000
    ensures ShiftLeft(workerId, 12) == workerId * 4096
  {
    Pow2Small();
    Pow2Medium();
    Pow2Large();
    PowMonotone(5, 46);
    PowMonotone(5, 51);
    ShiftLeftExact(delta, 22);
    ShiftLeftExact(dataCenterId, 17);
    ShiftLeftExact(workerId, 12);
  }

  /** The documented fields ORed together: none overlaps another, so the OR
      is their mixed-radix sum. */
  lemma DocumentedOr(delta: long, dc: long, w: long, sequence: long)
    requires 0 <= delta < 0x200_0000_0000 && 0 <= dc <= 31 && 0 <= w <= 31
    requires 0 <= sequence < 4096
    ensures LongOr(LongOr(LongOr(ShiftLeft(delta, 22), ShiftLeft(dc, 17)), ShiftLeft(w, 12)), sequence)
         == Packed(delta, dc, w, sequence)
  {
    DocumentedFields(delta, dc, w);
    Pow2Small();
    Pow2Medium();
    var t := ShiftLeft(delta, 22);
    var d := ShiftLeft(dc, 17);
    OrFields(delta, dc, 5, 17, 32, 0x2_0000);
    var y := delta * 32 + dc;
    assert LongOr(t, d) == y * 0x2_0000;
    var wf := ShiftLeft(w, 12);
    OrFields(y, w, 5, 12, 32, 4096);
    var z := y * 32 + w;
    assert LongOr(LongOr(t, d), wf) == z * 4096;
    OrShifted(z, 12, sequence);
    assert Packed(delta, dc, w, sequence) == z * 4096 + sequence;
  }

  /** In the documented layout, with a timestamp at most 41 bits past the
      epoch, the identifier is the mixed-radix number of its fields. */
  lemma DocumentedPacking(c: Config, timestamp: long, sequence: long)
    requires c.layout == DOCUMENTED && ValidConfig(c)
    requires c.twepoch <= timestamp && timestamp - c.twepoch < 0x200_0000_0000
    requires 0 <= sequence < 4096
    ensures Compose(c, timestamp, sequence)
         == Packed(timestamp - c.twepoch, c.dataCenterId, c.workerId, sequence)
  {
    var delta := timestamp - c.twepoch;
    assert Wrap(delta) == delta;
    assert c.layout.timestampLeftShift == 22 && c.layout.dataCenterIdShift == 17;
    assert c.layout.workerIdShift == 12;
    DocumentedOr(delta, c.dataCenterId, c.workerId, sequence);
  }

  /** Within one generator, a later millisecond, or a later sequence number in
      the same millisecond, gives a larger packed value. */
  lemma PackedOrder(d1: int, s1: int, d2: int, s2: int, dataCenterId: int, workerId: int)
    requires 0 <= dataCenterId < 32 && 0 <= workerId < 32
    requires 0 <= s1 < 4096 && 0 <= s2 < 4096
    requires d1 < d2 || (d1 == d2 && s1 < s2)
    ensures Packed(d1, dataCenterId, workerId, s1) < Packed(d2, dataCenterId, workerId, s2)
  {
    var z1 := (d1 * 32 + dataCenterId) * 32 + workerId;
    var z2 := (d2 * 32 + dataCenterId) * 32 + workerId;
    assert z2 - z1 == (d2 - d1) * 1024;
  }

  /** The packed value determines all four fields. */
  lemma PackedInjective(d1: int, dc1: int, w1: int, s1: int, d2: int, dc2: int, w2: int, s2: int)
    requires 0 <= dc1 < 32 && 0 <= w1 < 32 && 0 <= s1 < 4096
    requires 0 <= dc2 < 32 && 0 <= w2 < 32 && 0 <= s2 < 4096
    requires Packed(d1, dc1, w1, s1) == Packed(d2, dc2, w2, s2)
    ensures d1 == d2 && dc1 == dc2 && w1 == w2 && s1 == s2
  {
    var y1, y2 := d1 * 32 + dc1, d2 * 32 + dc2;
    var z1, z2 := y1 * 32 + w1, y2 * 32 + w2;
    var n := Packed(d1, dc1, w1, s1);
    DivModUnique(n, 4096, z1, s1);
    DivModUnique(n, 4096, z2, s2);
    DivModUnique(z1, 32, y1, w1);
    DivModUnique(z1, 32, y2, w2);
    DivModUnique(y1, 32, d1, dc1);
    DivModUnique(y1, 32, d2, dc2);
  }

  /** The ordering claim of the class comment, in the documented layout: each
      identifier is larger than the one the fields the call starts from
      compose, which is the previous identifier when no call threw in between,
      while timestamps stay within the 41-bit range. After a failed wait the
      fields are (0, last) and ids repeat (FailedWaitRepeatsId). */
  lemma DocumentedIdsIncrease(c: Config, st: State, readings: seq<long>)
    requires c.layout == DOCUMENTED && ValidConfig(c)
    requires 0 <= st.sequence < 4096 && c.twepoch <= st.lastTimestamp
    requires ClockSuffices(st, readings) && NextId(c, st, readings).result.Ok?
    requires NextId(c, st, readings).next.lastTimestamp - c.twepoch < 0x200_0000_0000
    ensures Compose(c, st.lastTimestamp, st.sequence) < NextId(c, st, readings).result.value
  {
    var m := NextId(c, st, readings);
    NextIdAdvances(c, st, readings);
    DocumentedPacking(c, st.lastTimestamp, st.sequence);
    DocumentedPacking(c, m.next.lastTimestamp, m.next.sequence);
    PackedOrder(st.lastTimestamp - c.twepoch, st.sequence,
                m.next.lastTimestamp - c.twepoch, m.next.sequence,
                c.dataCenterId, c.workerId);
  }

  /** The uniqueness claim of the class comment, in the documented layout: two
      generators with the same epoch and different (data-center, worker) pairs
      never issue the same identifier. */
  lemma DocumentedNodesDistinct(c1: Config, c2: Config, t1: long, s1: long, t2: long, s2: long)
    requires c1.layout == DOCUMENTED && c2.layout == DOCUMENTED
    requires ValidConfig(c1) && ValidConfig(c2) && c1.twepoch == c2.twepoch
    requires (c1.dataCenterId, c1.workerId) != (c2.dataCenterId, c2.workerId)
    requires c1.twepoch <= t1 && t1 - c1.twepoch < 0x200_0000_0000 && 0 <= s1 < 4096
    requires c2.twepoch <= t2 && t2 - c2.twepoch < 0x200_0000_0000 && 0 <= s2 < 4096
    ensures Compose(c1, t1, s1) != Compose(c2, t2, s2)
  {
    DocumentedPacking(c1, t1, s1);
    DocumentedPacking(c2, t2, s2);
    if Compose(c1, t1, s1) == Compose(c2, t2, s2) {
      PackedInjective(t1 - c1.twepoch, c1.dataCenterId, c1.workerId, s1,
                      t2 - c2.twepoch, c2.dataCenterId, c2.workerId, s2);
    }
  }

  // ---- The layout as written ----------------------------------------------

  /** The three shifted fields of a generator whose worker id is 0, in the
      layout as written, while the timestamp is under 32 ms past the epoch. */
  lemma AsWrittenFields(c: Config, timestamp: long, delta: nat)
    requires c.layout == AS_WRITTEN && c.workerId == 0 && 0 <= c.dataCenterId < 32
    requires timestamp - c.twepoch == delta < 32
    ensures ShiftLeft(Wrap(timestamp - c.twepoch), 17) == delta * 0x2_0000
    ensures ShiftLeft(c.dataCenterId, 17) == c.dataCenterId * 0x2_0000
    ensures ShiftLeft(c.workerId, 12) == 0
  {
    Pow2Small();
    Pow2Medium();
    PowMonotone(5, 46);
    ShiftLeftExact(delta, 17);
    ShiftLeftExact(c.dataCenterId, 17);
  }

  /** The timestamp and data-center fields of such a generator, ORed. */
  lemma AsWrittenHigh(c: Config, timestamp: long, delta: nat, dataCenterId: nat)
    requires c.layout == AS_WRITTEN && c.workerId == 0 && c.dataCenterId == dataCenterId < 32
    requires timestamp - c.twepoch == delta < 32
    ensures 0 <= Or(delta, dataCenterId) < 32
    ensures LongOr(ShiftLeft(Wrap(timestamp - c.twepoch), 17), ShiftLeft(c.dataCenterId, 17))
         == Or(delta, dataCenterId) * 0x2_0000
  {
    AsWrittenFields(c, timestamp, delta);
    Pow2Small();
    Pow2Medium();
    OrScaled(delta, dataCenterId, 17);
    OrBelow(delta, dataCenterId, 5);
  }

  /** The identifier of a generator whose worker id is 0, at sequence 0, in
      the layout as written: the OR of the two fields that share bit 17 up. */
  lemma AsWrittenId(c: Config, timestamp: long, delta: nat, dataCenterId: nat)
    requires c.layout == AS_WRITTEN && c.workerId == 0 && c.dataCenterId == dataCenterId < 32
    requires timestamp - c.twepoch == delta < 32
    ensures Compose(c, timestamp, 0) == Or(delta, dataCenterId) * 0x2_0000
  {
    AsWrittenHigh(c, timestamp, delta, dataCenterId);
    AsWrittenFields(c, timestamp, delta);
    assert c.layout.timestampLeftShift == 17 && c.layout.dataCenterIdShift == 17;
    assert c.layout.workerIdShift == 12;
    var high := Or(delta, dataCenterId) * 0x2_0000;
    assert Compose(c, timestamp, 0) == LongOr(LongOr(high, 0), 0);
  }

  /** With the computed timestamp shift of 17, the timestamp field and the
      data-center field share bits. Data center 1, worker 0: the first call
      at the epoch and the next call one millisecond later return the same
      identifier, 1 << 17. */
  lemma AsWrittenRepeatsId()
    ensures var c := Config(TIME_WHEN_EPOCH, 0, 1, AS_WRITTEN);
      var first := NextId(c, INITIAL, [TIME_WHEN_EPOCH]);
      && first.result.Ok?
      && var second := NextId(c, first.next, [TIME_WHEN_EPOCH + 1]);
      && second.result.Ok?
      && first.result.value == second.result.value == 0x2_0000
  {
    var c := Config(TIME_WHEN_EPOCH, 0, 1, AS_WRITTEN);
    var first := NextId(c, INITIAL, [TIME_WHEN_EPOCH]);
    assert first.next == State(0, TIME_WHEN_EPOCH);
    AsWrittenId(c, TIME_WHEN_EPOCH, 0, 1);
    assert Or(0, 1) == 1;
    var second := NextId(c, first.next, [TIME_WHEN_EPOCH + 1]);
    assert second.next == State(0, TIME_WHEN_EPOCH + 1);
    AsWrittenId(c, TIME_WHEN_EPOCH + 1, 1, 1);
    OrSelf(1);
  }

  /** Data center 2, worker 0: the call one millisecond after the epoch
      returns 3 << 17 and the next call, a millisecond later, 2 << 17. */
  lemma AsWrittenIdDecreases()
    ensures var c := Config(TIME_WHEN_EPOCH, 0, 2, AS_WRITTEN);
      var first := NextId(c, INITIAL, [TIME_WHEN_EPOCH + 1]);
      && first.result.Ok?
      && var second := NextId(c, first.next, [TIME_WHEN_EPOCH + 2]);
      && second.result.Ok?
      && first.result.value == 0x6_0000 && second.result.value == 0x4_0000
      && second.result.value < first.result.value
  {
    var c := Config(TIME_WHEN_EPOCH, 0, 2, AS_WRITTEN);
    var first := NextId(c, INITIAL, [TIME_WHEN_EPOCH + 1]);
    assert first.next == State(0, TIME_WHEN_EPOCH + 1);
    AsWrittenId(c, TIME_WHEN_EPOCH + 1, 1, 2);
    assert Or(1, 2) == 3;
    var second := NextId(c, first.next, [TIME_WHEN_EPOCH + 2]);
    assert second.next == State(0, TIME_WHEN_EPOCH + 2);
    AsWrittenId(c, TIME_WHEN_EPOCH + 2, 2, 2);
    OrSelf(2);
  }

  /** Data center 0 one millisecond after the epoch and data center 1 at the
      epoch, both worker 0 and sequence 0, issue the same identifier. */
  lemma AsWrittenNodesCollide()
    ensures Compose(Config(TIME_WHEN_EPOCH, 0, 0, AS_WRITTEN), TIME_WHEN_EPOCH + 1, 0)
         == Compose(Config(TIME_WHEN_EPOCH, 0, 1, AS_WRITTEN), TIME_WHEN_EPOCH, 0)
         == 0x2_0000
  {
    AsWrittenId(Config(TIME_WHEN_EPOCH, 0, 0, AS_WRITTEN), TIME_WHEN_EPOCH + 1, 1, 0);
    AsWrittenId(Config(TIME_WHEN_EPOCH, 0, 1, AS_WRITTEN), TIME_WHEN_EPOCH, 0, 1);
    assert Or(1, 0) == 1 && Or(0, 1) == 1;
  }

  // ---- Long.toHexString ---------------------------------------------------

  /** The unsigned value of the 64 bits of a long. */
  function Unsigned(x: long): (u: nat)
    ensures u < TWO_TO_64
    ensures x >= 0 ==> u == x
    ensures x < 0 ==> u == x + TWO_TO_64
  {
    if x < 0 then x + TWO_TO_64 else x
  }

  function LowerChar(c: char): char
  {
    if 'A' <= c <= 'Z' then (c as int - 'A' as int + 'a' as int) as char else c
  }

  function UpperChar(c: char): char
  {
    if 'a' <= c <= 'z' then (c as int - 'a' as int + 'A' as int) as char else c
  }

  function Lower(s: string): (r: string)
    ensures |r| == |s|
    ensures forall i :: 0 <= i < |s| ==> r[i] == LowerChar(s[i])
  {
    if s == [] then [] else [LowerChar(s[0])] + Lower(s[1..])
  }

  function Upper(s: string): (r: string)
    ensures |r| == |s|
    ensures forall i :: 0 <= i < |s| ==> r[i] == UpperChar(s[i])
  {
    if s == [] then [] else [UpperChar(s[0])] + Upper(s[1..])
  }

  /** A lowercase hexadecimal digit. */
  predicate IsHexDigit(c: char)
  {
    '0' <= c <= '9' || 'a' <= c <= 'f'
  }

  /** The value of a lowercase hexadecimal string, read by upper-casing it
      and decoding it in base 16. */
  function HexValue(s: string): nat
  {
    NumericConvert.ValueOf(Upper(s), 16)
  }

  /** `Long.toHexString`, a library call specified rather than modelled: the
      lowercase base-16 digits of the unsigned value, without leading zeros. */
  function ToHexString(x: long): (s: string)
    ensures |s| >= 1 && (s[0] == '0' <==> x == 0)
    ensures forall i :: 0 <= i < |s| ==> IsHexDigit(s[i])
  {
    var e := NumericConvert.Encode(Unsigned(x), 16);
    forall i | 0 <= i < |e| ensures IsHexDigit(LowerChar(e[i])) {
      assert NumericConvert.IsDigit(e[i], 16);
    }
    Lower(e)
  }

  /** The hexadecimal string reads back as the unsigned value of the long, and
      so as the identifier itself when it is not negative. */
  lemma HexRoundTrip(x: long)
    ensures HexValue(ToHexString(x)) == Unsigned(x)
    ensures x >= 0 ==> HexValue(ToHexString(x)) == x
  {
    var e := NumericConvert.Encode(Unsigned(x), 16);
    var s := ToHexString(x);
    forall i | 0 <= i < |e| ensures Upper(s)[i] == e[i] {
      assert NumericConvert.IsDigit(e[i], 16);
    }
    assert Upper(s) == e;
    NumericConvert.DecodeEncode(Unsigned(x), 16);
  }
}
